=== FILE: README.md ===
# sms.ru client — a Dafny model

A model of the decision core of `smsru.py`, a Python 2 client for the sms.ru
HTTP API. The model covers:

- choosing and parsing the `key=value` configuration file and checking it at
  construction;
- `_call`: argument building, the choice between simple authentication
  (`api_id`) and enhanced authentication (`login`, `token`, `sig`), and the
  envelope codes `200/210/211/220/301`;
- the token cache of `_get_token`, with its 500-second freshness window;
- the public operations `send`, `status`, `cost`, `balance`, `limit` and
  `token`, with the status tables and the decoding of the response lines.

The outside world is passed in as parameters:

- `Env.transport` is the server. It maps a request (a method name and an
  argument map) to a raw response body.
- `Env.md5Hex` is the MD5 hex digest. It is left uninterpreted.
- `Clock` holds the two wall-clock readings a token acquisition makes: one
  before the fetch and one after.
- The configuration candidates are given as their contents, `None` for a
  missing file.

Every operation returns an `Outcome`: the client's new state, the requests it
sent in order, and a `Result`. Python's exceptions are the `Error` datatype.
That lets the model state how many token fetches a sequence of calls makes.

Modules, in dependency order:

- `Errors`: `Option`, `Result` and the error kinds.
- `Text`: Python 2's `strip`, `split`, `split(sep, 1)`, `lstrip`, `int()` and
  `str()` on integers.
- `StatusTables`: the three code tables and the lookup.
- `Config`: the choice of file and the parsing of its lines.
- `Tokens`: the token cache as a value.
- `SmsClient`: the client, `_call`, `_get_token` and `token`.
- `Decode`: how each public method reads its response lines.
- `Api`: the public methods.
- `Properties`: lemmas that span several operations, and example
  exchanges.

Behaviour of the code worth noting, all of which the model keeps:

- `send` returns the server's second line as the message id whatever the
  code. The appended `None` is only reached with a one-line answer. An
  accepted message (`100`) without a second line fails on the index.
- `cost` likewise returns the second and third lines whenever they exist.
- `cost` accepts a byte string as well as unicode text. A byte string passes
  when it is ASCII and raises `UnicodeError` otherwise.
- Enhanced authentication needs a login that is non-empty after its leading
  `+` signs are removed, and a non-empty password.
- A configuration file that exists but has a line without `=` fails with
  `ValueError`. This includes an empty file and a blank line, because
  `"".split("\n")` is `[""]`.
- The response body is stripped at both ends before it is split into lines.
- The envelope check compares the first line as text, while the decoders read
  it with `int()`. A first line such as `"200\r"` passes the envelope check,
  and `send` then reports code 200 (`Properties.EnvelopeCheckIsTextual`).
- The signature hashes `password + token`. Python 2 converts that text
  implicitly, so a non-ASCII password or token raises `UnicodeError` before
  any signed request is sent.

## Model

| member | source | states |
|---|---|---|
| StatusTables.LookupsAreTotal | smsru.py:41-69 | In each of the three tables, a code reads as "Unknown status" exactly when the table does not document it. |
| StatusTables.DescribeIsTotal | smsru.py:167 | `table.get(code, "Unknown status")` gives the listed text for a listed code and the fallback exactly for the others, in any table whose texts differ from the fallback. |
| Config.FirstPresent | smsru.py:104-110 | The first existing candidate is the one read: no earlier candidate exists. The result is absent exactly when no candidate exists. |
| Config.ParseConfig | smsru.py:107-109 | Parsing succeeds exactly when every line of the stripped text holds a `=`. Otherwise it fails with `ValueError` naming the first line without one. |
| Config.Entry | smsru.py:108 | A line is read as the text before its first `=` and everything after it, both sides stripped. |
| Config.ToMapLastWins | smsru.py:109 | `dict(pairs)` binds a key to a value exactly when that pair is the last one with the key. |
| Config.ParsedBindings | smsru.py:107-109 | A parsed configuration maps `k` to `v` exactly when the last line with key `k` has value `v`. |
| Config.EmptyFileIsMalformed | smsru.py:107-109 | An empty file fails with `ValueError` on line 0. |
| Config.BlankLineIsMalformed | smsru.py:107-109 | A blank line between two lines fails with `ValueError` on line 1. |
| Text.StripUnique | smsru.py:107 | `strip()` removes exactly the whitespace around a core that does not itself start or end with whitespace. |
| Text.Split | smsru.py:129 | `split("\n")` returns at least one part; no part contains the separator; joining the parts gives back the text. |
| Text.SplitJoin | smsru.py:108 | Splitting a join of separator-free parts returns those parts, so `Split` and `Join` are inverse. |
| Text.SplitOnce | smsru.py:108 | `split("=", 1)` has one element exactly when there is no `=`. Otherwise its two parts are the text before the first `=` and the rest. |
| Text.LStrip | smsru.py:119 | The result of `lstrip("+")` does not start with `+` and is no longer than the input. |
| Text.LStripRemovesRun | smsru.py:119 | The input of `lstrip("+")` is a run of `+` followed by the result, so exactly the leading run is removed. |
| Text.ParseShowInt | smsru.py:167 | `int(str(n)) == n` for every integer. |
| Text.ParseDigitString | smsru.py:172 | `int()` of a digit string is the number it spells. |
| Tokens.Expire | smsru.py:144-145 | A token older than 500 seconds is discarded. A token exactly 500 seconds old is kept. The timestamp never changes. |
| Tokens.Store | smsru.py:146-148 | A freshly stored token is served for exactly the next 500 seconds and no longer. |
| Tokens.UnsetIsNeverUsable | smsru.py:100-101 | A new client (no token, timestamp 0) has no usable token at any time. |
| SmsClient.Construct | smsru.py:94-101 | Construction fails with `NotConfigured` (file not found) exactly when no file exists. A file that does not parse passes on the parser's `ValueError`. A parsed file without `key` fails with `NotConfigured` (key not set). Construction succeeds exactly when the file parses and has `key`, and then the client holds that mapping, no token and a timestamp of 0. |
| Text.Lines | smsru.py:129 | A response always has a first line, no line holds a line feed, and the lines joined by line feeds are the stripped body. |
| Text.LinesOf | smsru.py:129 | A body that is already stripped reads back as exactly the lines it was joined from. |
| SmsClient.EnvelopeError | smsru.py:130-139 | A first line stands for an error exactly when it is one of the five envelope codes. |
| SmsClient.Classify | smsru.py:130-140 | An envelope code becomes its error. Any other first line passes the lines through unchanged. |
| SmsClient.Auth | smsru.py:118-121 | Enhanced authentication is chosen exactly for `sms/send` and `sms/cost` when the `+`-stripped login and the password are both non-empty, and it carries those two values. |
| SmsClient.SignedArgs | smsru.py:122-125 | A signed request has no `api_id`, has `login`, `token` and `sig` with the given values, and keeps every other argument. |
| SmsClient.Plain | smsru.py:116-140 | A simple call sends one request: the caller's arguments plus `api_id`. It leaves the client alone and returns the answer's lines unless the first line is an envelope code. |
| SmsClient.Call | smsru.py:112-140 | A non-dictionary is refused before anything is sent. A simple call sends one request with `api_id` and changes nothing. Success only comes once the method's own request was the last sent, and from then on the result is that request's answer read through the envelope check. At most two requests are sent, and the configuration never changes. |
| SmsClient.SignedCall | smsru.py:118-127 | A signed call sends at most two requests and leaves the configuration alone. Once its own request is the last sent, the result is that request's answer read through the envelope check. |
| SmsClient.SignedCallWithUsableToken | smsru.py:118-127 | With a usable cached token and an ASCII password and token, a signed call sends only the signed request, keeps the client as it was, and returns that request's answer read through the envelope check. |
| SmsClient.SignedCallAfterFetch | smsru.py:118-127 | With no usable token, a successful token fetch and an ASCII password and token, a signed call sends `auth/get_token` and then the request signed with the new token, caches that token stamped with the later clock reading, and returns the signed request's answer read through the envelope check. |
| SmsClient.SignedCallFetchFails | smsru.py:121-124 | With no usable token and a token fetch that fails (an envelope code on `auth/get_token`), a signed call sends only the `auth/get_token` request and ends with the fetch's error; the cache keeps no token and its timestamp. |
| SmsClient.SignedCallNotAscii | smsru.py:123-124 | When the password followed by the token `_get_token` yields is not ASCII, a signed call raises `UnicodeError` having sent only what `_get_token` sent, with `_get_token`'s client. |
| SmsClient.SignedCallFetches | smsru.py:142-149 | A signed call with a usable token fetches nothing, leaves the client as it was, and sends at most the one signed request. Without a usable token its first request is `auth/get_token`, and a token it then holds is stamped with the time read after the fetch. |
| SmsClient.SignedCallSigns | smsru.py:122-125 | A signed request carries the token the client now caches and `sig = md5(password + token)`. A successful signed call ends with the signed request. |
| SmsClient.Sign | smsru.py:122-127 | A failed token fetch is passed on without sending anything. A non-ASCII `password + token` raises `UnicodeError` without sending. Otherwise exactly the signed request is appended, and the result is its answer read through the envelope check. |
| SmsClient.GetToken | smsru.py:142-149 | A usable cached token is returned with no request and no state change. Otherwise exactly one `auth/get_token` request is sent, and its answer is cached with the later clock reading (or the token is cleared on failure). |
| SmsClient.Token | smsru.py:197-199 | `token()` sends one `auth/get_token` request with the API key and returns the answer's first line, or the envelope error it stands for. |
| SmsClient.TokenIsPlainCall | smsru.py:197-199 | `token()` agrees with `_call("auth/get_token", {})` followed by `[0]`, whatever the configuration. |
| Decode.SuccessLine | smsru.py:164 | The line written for a code is "100" exactly when the code is 100. |
| Decode.DecodeSend | smsru.py:165-167 | The code is `int()` of the first line, described through the send table. The id is the second line whenever there is one. The id is `None` exactly for a one-line answer other than "100". "100" alone fails with `IndexError`. A first line that `int()` cannot read fails with `ValueError` carrying it. |
| Decode.SendAnswerRead | smsru.py:164-167 | An answer written as a code and further lines reads back as that code, its send-table text and the first further line (or `None` for a code other than 100 alone). An accepted code with no further line fails with `IndexError`. |
| Decode.StatusAnswerRead | smsru.py:172-174 | An answer written as a code reads back as that code and its delivery-table text. |
| Decode.DecodeCost | smsru.py:179-181 | The code is `int()` of the first line, described through the cost table. Cost and length are the second and third lines when present. "100" with fewer than three lines fails with `IndexError`. A first line that `int()` cannot read fails with `ValueError` carrying it. |
| Decode.CostAnswerRead | smsru.py:178-181 | An answer written as a code and further lines reads back as that code, its cost-table text and the first two further lines where present. An accepted code with fewer than two further lines fails with `IndexError`. |
| Decode.BalanceAnswerRead | smsru.py:186-188 | An answer written as code 100 and an amount reads back as the amount line. Code 100 alone fails with `IndexError`. Any other code fails with an error carrying its line. |
| Decode.DecodeLimit | smsru.py:193-195 | Succeeds exactly when the first line is "100" and the second parses as an integer, which it returns. A first line other than "100" is an error carrying it. "100" alone, or no line at all, fails with `IndexError`. A second line that is not an integer fails with `ValueError` carrying it. |
| Decode.LimitAnswerRead | smsru.py:193-195 | An answer written as a code and a number reads back as that number when the code is 100, and as an error carrying the code's line otherwise. |
| Api.SendArgs | smsru.py:157-163 | `to` and `text` are always present. `from` is present exactly when `sender` is configured, with its value. `express="1"` and `test="1"` are present exactly when their flags are set. Nothing else is present. |
| Api.Send | smsru.py:155-167 | A byte string is refused before anything is sent. With simple authentication exactly one `sms/send` request goes out, with the send arguments and `api_id`, and the client is unchanged. Once the `sms/send` request is the last sent, the result is the envelope error its answer's first line stands for, or else the send decoding of the answer. The configuration never changes. |
| Api.Status | smsru.py:169-174 | One `sms/status` request with `id` and `api_id`, and the client is unchanged. The result is the envelope error of the answer's first line, or else the answer decoded through the delivery table. |
| Api.Cost | smsru.py:176-181 | A non-ASCII byte string is refused with `UnicodeError` before anything is sent. With simple authentication exactly one `sms/cost` request goes out, with `to`, the encoded text and `api_id`. Once the `sms/cost` request is the last sent, the result is the envelope error of its answer's first line, or else the cost decoding of the answer. |
| Api.AsciiBytesCostLikeText | smsru.py:178 | An ASCII byte string costs exactly what the same unicode text costs: same requests, same client, same result. |
| Api.Balance | smsru.py:183-188 | One `my/balance` request with `api_id`, and the client is unchanged. The result is the envelope error of the answer's first line, or else the balance decoding, which raises with the first line unless it is "100". Success returns the second line after "100". |
| Api.Limit | smsru.py:190-195 | One `my/limit` request with `api_id`, and the client is unchanged. The result is the envelope error of the answer's first line, or else the limit decoding, which raises with the first line unless it is "100". Success returns `int()` of the second line after "100". |
| Properties.SimpleModeSendAndCostUseApiKey | smsru.py:116-121 | When signing is not enabled (no `+`-stripped login or no password), `send` and `cost` send one request authenticated by `api_id` alone and leave the client unchanged. |
| Properties.LoginAndPasswordSignSend | smsru.py:118-125 | With a login and a password, the `sms/send` request carries exactly the send arguments without `api_id`, plus the login, the cached token and `md5(password + token)`. |
| Properties.LoginAndPasswordSignCost | smsru.py:118-125 | The same for `sms/cost`, whose arguments are `to` and `text`. |
| Properties.SignedSendAfterFetch | smsru.py:118-127 | With a login and a password, no usable token, a successful fetch and an ASCII password and token, `send` sends `auth/get_token` and then exactly the signed `sms/send` request, caches the new token, and decodes the signed request's answer. |
| Properties.SignedSendFetchFails | smsru.py:121-124 | With a login and a password, no usable token and a failing token fetch, `send` sends only `auth/get_token` and fails with the fetch's error, the client keeping no token. |
| Properties.SignedCostGoesOut | smsru.py:118-127 | The usable-token case for `cost`: exactly the one signed `sms/cost` request, the client kept, its answer decoded. |
| Properties.SignedCostAfterFetch | smsru.py:118-127 | The fetch case for `cost`: `auth/get_token`, then exactly the signed `sms/cost` request, the new token cached, its answer decoded. |
| Properties.SignedSendGoesOut | smsru.py:118-127 | With a login and a password, a usable cached token and an ASCII password and token, `send` sends exactly the one signed request, keeps the client, and decodes that request's answer. |
| Properties.OtherCallsUseApiKey | smsru.py:116-118 | `status`, `balance` and `limit` use `api_id` alone, whatever the configuration. |
| Properties.FreshnessBoundary | smsru.py:144-148 | A token exactly 500 seconds old is reused with no request. One 500.5 seconds old triggers exactly one `auth/get_token` request. |
| Properties.CachedTokenReused | smsru.py:142-149 | A signed call with a usable token sends no `auth/get_token` request, signs with the cached token, and leaves the client as it was. |
| Properties.TokenReusedWithinWindow | smsru.py:142-149 | A second signed call within the window reuses the first call's token, fetches nothing and changes nothing. |
| Properties.TokenFetchedWhenNoneUsable | smsru.py:144-148 | A signed call with no usable token starts with exactly one `auth/get_token` request and makes no other `auth/get_token` request. |
| Properties.TokenRefetchedAfterWindow | smsru.py:144-148 | After the window, a signed call makes exactly one fresh token fetch. |
| Properties.OneTokenFetchForTwoCalls | smsru.py:100-101 | From a new client, two signed calls within the window make one `auth/get_token` request between them, whenever the server's answer to `auth/get_token` is not an envelope code. |
| Properties.CallIsEnvelope | smsru.py:129-140 | A server answering with an envelope code makes any call fail with that code's error, in either authentication mode. |
| Properties.EnvelopeErrorsAreUniform | smsru.py:129-140 | Each envelope code is the same error for `send`, `cost`, `status`, `balance`, `limit` and `token`. |
| Properties.KeyOnlySendReads | smsru.py:164-167 | For a key-only client, `send` returns the send decoding of the body's lines, whatever the `express` and `test` flags. |
| Properties.KeyOnlyStatusReads | smsru.py:171-174 | For a key-only client, `status` returns the status decoding of the body's lines. |
| Properties.KeyOnlyCostReads | smsru.py:178-181 | For a key-only client, `cost` returns the cost decoding of the body's lines. |
| Properties.KeyOnlyBalanceReads | smsru.py:185-188 | For a key-only client, `balance` returns the balance decoding of the body's lines. |
| Properties.KeyOnlyLimitReads | smsru.py:192-195 | For a key-only client, `limit` returns the limit decoding of the body's lines. |
| Properties.KeyOnlyCallReads | smsru.py:116-140 | For a key-only client, any call to a server whose answer does not start with an envelope code returns the answer's lines. |
| Properties.SendAccepted | smsru.py:165-167 | "100" and an id decode as `(100, "Message accepted", id)`. |
| Properties.SendRejectedKeepsSecondLine | smsru.py:165-167 | "201" and a second line decode as `(201, "Out of money", that line)`, not `None`. |
| Properties.SendRejectedWithoutId | smsru.py:165-167 | "201" alone decodes as `(201, "Out of money", None)`. |
| Properties.SendAcceptedWithoutId | smsru.py:165-167 | "100" alone fails with `IndexError`. |
| Properties.StatusDelivered | smsru.py:172-174 | "103" decodes as `(103, "Message delivered")`. |
| Properties.CostQuoted | smsru.py:179-181 | "100", a price and a length decode as `(100, "Success", price, length)`. |
| Properties.CostWithoutQuote | smsru.py:179-181 | "203" decodes as `(203, "Unknown status", None, None)`. |
| Properties.BalanceAnswered | smsru.py:186-187 | "100" and an amount return the amount line. |
| Properties.BalanceRefused | smsru.py:186-188 | Any other single line is an error carrying that line. |
| Properties.EnvelopeCheckIsTextual | smsru.py:130-131 | "200\r" is not taken for the envelope code 200, and `send` reports code 200 with the fallback text. |
| Properties.ReadsCarriageReturn | smsru.py:167 | `int("200\r")` is 200, because trailing whitespace is allowed. |

## Left out

- HTTP and URL construction (`urllib.urlencode`, `urllib2.urlopen`). The server is a function from request to body. Transport errors, and `urlencode`'s own failure on non-ASCII unicode values, are not modelled.
- MD5 is an uninterpreted function. Nothing is claimed about its output.
- The file system (`os.path.expanduser`, `os.path.exists`, reading). Candidates are given as contents. A UTF-8 decoding failure of the file is not modelled, and characters stand for decoded code points.
- `time.time()` is a parameter: two readings per token acquisition. Floating-point rounding of times is not modelled; times are reals.
- `Api.Balance`: returns the second line as text rather than `float(res[1])`, because floating point is out of scope. A second line that is not a number therefore does not fail here.
- `_call` adds `api_id` to the caller's own dictionary (aliasing). Each public method passes a fresh dictionary, so this is not observable through them and is not modelled.
- `send` and `cost` encode their text to UTF-8 before sending. The model sends the text's characters, because the wire format is out of scope.
- The unicode/byte-string distinction is modelled only where the code branches on it: `send`'s unicode check, `cost`'s `encode`, and the implicit conversion in the signature.
- Concurrency: the client is single-threaded and the model is sequential.
- The command-line interface (`smsru.py:202-249`): argument dispatch, printing and exit codes.

=== FILE: api.dfy ===
/** The public operations of the client: `send`, `status`, `cost`,
    `balance` and `limit` (`token` is in `SmsClient`, beside `_get_token`,
    which uses it). Each builds its arguments, goes through `Call`, and
    decodes the lines that come back. */
module Api {
  import opened Errors
  import opened Text
  import opened Tokens
  import opened StatusTables
  import opened Decode
  import opened SmsClient

  /** A Python 2 string argument: unicode text or a byte string. */
  datatype Message = Unicode(text: string) | Bytes(data: string)

  /** Hands the lines of a successful call to a decoder; errors pass through. */
  function Then<T>(o: Outcome<seq<string>>, decode: seq<string> -> Result<T>): (r: Outcome<T>)
    ensures r.client == o.client && r.sent == o.sent
    ensures o.result.Err? ==> r.result == Err(o.result.error)
    ensures o.result.Ok? ==> r.result == decode(o.result.value)
  {
    match o.result
    case Err(e) => Outcome(o.client, o.sent, Err(e))
    case Ok(lines) => Outcome(o.client, o.sent, decode(lines))
  }

  /** The promise of every public operation for its method `name`: it
      succeeds only once the method's own request went out last, and from
      then on its result is what the answer's first line stands for when that
      is an envelope code, and the decoder's reading of the answer
      otherwise. */
  predicate ReadsAnswer<T(==)>(env: Env, name: string, decode: seq<string> -> Result<T>, o: Outcome<T>) {
    && (o.result.Ok? ==> |o.sent| > 0 && o.sent[|o.sent| - 1].name == name)
    && (|o.sent| > 0 && o.sent[|o.sent| - 1].name == name ==>
          var lines := Lines(env.transport(o.sent[|o.sent| - 1]));
          o.result == if IsEnvelopeCode(lines[0]) then Err(EnvelopeError(lines[0]).value) else decode(lines))
  }

  /** Decoding what `_call` answered keeps `_call`'s promise. */
  lemma ThenReads<T>(env: Env, name: string, o: Outcome<seq<string>>, decode: seq<string> -> Result<T>)
    requires AnswersLast(env, name, o)
    ensures ReadsAnswer(env, name, decode, Then(o, decode))
  {
  }

  /** The arguments of `sms/send`: recipient and text always, `from` exactly
      when a sender is configured, `express` and `test` exactly when their
      flags are set. */
  function SendArgs(config: map<string, string>, to: string, text: string, express: bool, test: bool)
    : (args: map<string, string>)
    ensures "to" in args && args["to"] == to
    ensures "text" in args && args["text"] == text
    ensures "from" in args <==> "sender" in config
    ensures "from" in args ==> args["from"] == config["sender"]
    ensures "express" in args <==> express
    ensures "test" in args <==> test
    ensures "express" in args ==> args["express"] == "1"
    ensures "test" in args ==> args["test"] == "1"
    ensures forall k :: k in args ==> k in {"to", "text", "from", "express", "test"}
  {
    var args := map["to" := to, "text" := text];
    var args := if "sender" in config then args["from" := config["sender"]] else args;
    var args := if express then args["express" := "1"] else args;
    if test then args["test" := "1"] else args
  }

  /** `send(to, message, express, test)`. */
  function Send(c: Client, env: Env, clock: Clock, to: string, message: Message, express: bool, test: bool)
    : (o: Outcome<SendReport>)
    requires c.Valid()
    ensures o.client.config == c.config
    ensures message.Bytes? ==> o == Outcome(c, [], Err(ValueError(MessageNotUnicode)))
    // simple authentication: one request with the arguments and `api_id`
    ensures message.Unicode? && Auth(c.config, SendMethod).Simple? ==>
      && o.client == c
      && o.sent == [Request(SendMethod, SendArgs(c.config, to, message.text, express, test)[ApiId := c.config[ApiKey]])]
    ensures ReadsAnswer(env, SendMethod, DecodeSend, o)
  {
    match message
    case Bytes(_) => Outcome(c, [], Err(ValueError(MessageNotUnicode)))
    case Unicode(text) =>
      var o := Call(c, env, clock, SendMethod, Dict(SendArgs(c.config, to, text, express, test)));
      ThenReads(env, SendMethod, o, DecodeSend);
      Then(o, DecodeSend)
  }

  /** `status(msgid)`. */
  function Status(c: Client, env: Env, clock: Clock, msgid: string): (o: Outcome<StatusReport>)
    requires c.Valid()
    ensures o.client == c
    ensures o.sent == [Request(StatusMethod, map["id" := msgid, ApiId := c.config[ApiKey]])]
    ensures ReadsAnswer(env, StatusMethod, DecodeStatus, o)
  {
    assert map["id" := msgid][ApiId := c.config[ApiKey]] == map["id" := msgid, ApiId := c.config[ApiKey]];
    var o := Call(c, env, clock, StatusMethod, Dict(map["id" := msgid]));
    ThenReads(env, StatusMethod, o, DecodeStatus);
    Then(o, DecodeStatus)
  }

  /** The text argument of `cost`: `message.encode("utf-8")`, which a byte
      string survives only when it is ASCII. Unlike `send`, `cost` does not
      insist on unicode. */
  function EncodeText(message: Message): (r: Result<string>)
    ensures message.Unicode? ==> r == Ok(message.text)
    ensures message.Bytes? ==> r == if IsAscii(message.data) then Ok(message.data) else Err(UnicodeError)
  {
    match message
    case Unicode(text) => Ok(text)
    case Bytes(data) => if IsAscii(data) then Ok(data) else Err(UnicodeError)
  }

  /** `cost(to, message)`. */
  function Cost(c: Client, env: Env, clock: Clock, to: string, message: Message): (o: Outcome<CostReport>)
    requires c.Valid()
    ensures o.client.config == c.config
    ensures message.Bytes? && !IsAscii(message.data) ==> o == Outcome(c, [], Err(UnicodeError))
    // simple authentication: one request with the recipient, the encoded
    // text and `api_id`
    ensures EncodeText(message).Ok? && Auth(c.config, CostMethod).Simple? ==>
      && o.client == c
      && o.sent == [Request(CostMethod, map["to" := to, "text" := EncodeText(message).value, ApiId := c.config[ApiKey]])]
    ensures ReadsAnswer(env, CostMethod, DecodeCost, o)
  {
    match EncodeText(message)
    case Err(e) => Outcome(c, [], Err(e))
    case Ok(text) =>
      assert map["to" := to, "text" := text][ApiId := c.config[ApiKey]]
          == map["to" := to, "text" := text, ApiId := c.config[ApiKey]];
      var o := Call(c, env, clock, CostMethod, Dict(map["to" := to, "text" := text]));
      ThenReads(env, CostMethod, o, DecodeCost);
      Then(o, DecodeCost)
  }

  /** A byte string of ASCII characters costs exactly what the same text
      passed as unicode costs. */
  lemma AsciiBytesCostLikeText(c: Client, env: Env, clock: Clock, to: string, data: string)
    requires c.Valid() && IsAscii(data)
    ensures Cost(c, env, clock, to, Bytes(data)) == Cost(c, env, clock, to, Unicode(data))
  {
  }

  /** `balance()`. */
  function Balance(c: Client, env: Env, clock: Clock): (o: Outcome<string>)
    requires c.Valid()
    ensures o.client == c
    ensures o.sent == [Request(BalanceMethod, map[ApiId := c.config[ApiKey]])]
    ensures ReadsAnswer(env, BalanceMethod, DecodeBalance, o)
    ensures o.result.Ok? ==>
      var lines := Lines(env.transport(o.sent[0]));
      |lines| >= 2 && lines[0] == Decode.Success && o.result.value == lines[1]
  {
    assert map[][ApiId := c.config[ApiKey]] == map[ApiId := c.config[ApiKey]];
    var o := Call(c, env, clock, BalanceMethod, Dict(map[]));
    ThenReads(env, BalanceMethod, o, DecodeBalance);
    Then(o, DecodeBalance)
  }

  /** `limit()`. */
  function Limit(c: Client, env: Env, clock: Clock): (o: Outcome<int>)
    requires c.Valid()
    ensures o.client == c
    ensures o.sent == [Request(LimitMethod, map[ApiId := c.config[ApiKey]])]
    ensures ReadsAnswer(env, LimitMethod, DecodeLimit, o)
    ensures o.result.Ok? ==>
      var lines := Lines(env.transport(o.sent[0]));
      |lines| >= 2 && lines[0] == Decode.Success && Some(o.result.value) == ParseInt(lines[1])
  {
    assert map[][ApiId := c.config[ApiKey]] == map[ApiId := c.config[ApiKey]];
    var o := Call(c, env, clock, LimitMethod, Dict(map[]));
    ThenReads(env, LimitMethod, o, DecodeLimit);
    Then(o, DecodeLimit)
  }
}

=== FILE: client.dfy ===
/** The client object and its one remote-call primitive, `_call`: argument
    building with the choice between the two authentication modes, the token
    cache, and the classification of the envelope codes every response may
    carry.

    The world outside is a parameter. `Env.transport` is the server: given a
    request it answers with a raw response body. `Env.md5Hex` is the hex MD5
    digest, left uninterpreted. `Clock` holds the two wall-clock readings a
    token acquisition makes: one before the fetch (to judge staleness) and one
    after it (to stamp the new token). Every operation returns the client's
    new state, the requests it sent in order, and its result. */
module SmsClient {
  import opened Errors
  import opened Text
  import opened Tokens
  import Config

  const ApiKey := "key"
  const ApiId := "api_id"

  const SendMethod := "sms/send"
  const StatusMethod := "sms/status"
  const CostMethod := "sms/cost"
  const BalanceMethod := "my/balance"
  const LimitMethod := "my/limit"
  const TokenMethod := "auth/get_token"

  /** The methods that switch to login/token/signature authentication when
      the configuration allows it. */
  const SignedMethods: set<string> := {SendMethod, CostMethod}

  datatype Request = Request(name: string, args: map<string, string>)

  /** The `args` value handed to `_call`, which must be a dictionary. */
  datatype Args = Dict(entries: map<string, string>) | NotDict

  datatype Env = Env(transport: Request -> string, md5Hex: string -> string)

  datatype Clock = Clock(before: real, after: real)

  datatype Client = Client(config: map<string, string>, cache: TokenCache) {
    /** Construction guarantees the API key is configured. */
    predicate Valid() {
      ApiKey in config
    }
  }

  datatype Outcome<+T> = Outcome(client: Client, sent: seq<Request>, result: Result<T>)

  /** `Client()`: reads the first existing configuration file. Fails with
      `NotConfigured` when there is none or when it has no `key`; a malformed
      file fails with the parser's `ValueError`. A new client has no token
      and a token timestamp of 0. */
  function Construct(candidates: seq<Option<string>>): (r: Result<Client>)
    ensures Config.FirstPresent(candidates).None? <==> r == Err(NotConfigured(ConfigFileNotFound))
    ensures r.Ok? <==>
      && Config.FirstPresent(candidates).Some?
      && Config.ParseConfig(Config.FirstPresent(candidates).value).Ok?
      && ApiKey in Config.ParseConfig(Config.FirstPresent(candidates).value).value
    ensures r.Ok? ==>
      && r.value.Valid()
      && r.value.config == Config.ParseConfig(Config.FirstPresent(candidates).value).value
      && r.value.cache == TokenCache(None, 0.0)
    ensures Config.FirstPresent(candidates).Some? ==>
      var parsed := Config.ParseConfig(Config.FirstPresent(candidates).value);
      && (parsed.Err? ==> r == Err(parsed.error))
      && (parsed.Ok? && ApiKey !in parsed.value ==> r == Err(NotConfigured(ApiKeyNotSet)))
  {
    match Config.FirstPresent(candidates)
    case None => Err(NotConfigured(ConfigFileNotFound))
    case Some(raw) =>
      match Config.ParseConfig(raw)
      case Err(e) => Err(e)
      case Ok(config) =>
        if ApiKey !in config then Err(NotConfigured(ApiKeyNotSet))
        else Ok(Client(config, Unset))
  }

  predicate IsEnvelopeCode(line: string) {
    line in {"200", "210", "211", "220", "301"}
  }

  /** The error a first response line stands for, whatever the method. */
  function EnvelopeError(line: string): (e: Option<Error>)
    ensures e.Some? <==> IsEnvelopeCode(line)
  {
    if line == "200" then Some(WrongKey)
    else if line == "210" then Some(InternalError(GetInsteadOfPost))
    else if line == "211" then Some(InternalError(UnknownMethod))
    else if line == "220" then Some(Unavailable)
    else if line == "301" then Some(NotConfigured(WrongPassword))
    else None
  }

  /** The envelope check at the end of `_call`: an envelope code becomes its
      error, and any other first line hands the lines over unchanged. */
  function Classify(lines: seq<string>): (r: Result<seq<string>>)
    requires |lines| >= 1
    ensures r.Ok? <==> !IsEnvelopeCode(lines[0])
    ensures r.Ok? ==> r.value == lines
    ensures r.Err? ==> Some(r.error) == EnvelopeError(lines[0])
  {
    match EnvelopeError(lines[0])
    case Some(e) => Err(e)
    case None => Ok(lines)
  }

  /** One request on the wire and the client's reading of the answer. */
  function Exchange(env: Env, request: Request): Result<seq<string>> {
    Classify(Lines(env.transport(request)))
  }

  /** The promise `_call` keeps for method `name`: it succeeds only once the
      last request it sent is `name`'s own, and from then on its result is
      the answer to that request read through the envelope check. */
  predicate AnswersLast(env: Env, name: string, o: Outcome<seq<string>>) {
    && (o.result.Ok? ==> |o.sent| > 0 && o.sent[|o.sent| - 1].name == name)
    && (|o.sent| > 0 && o.sent[|o.sent| - 1].name == name ==>
          o.result == Exchange(env, o.sent[|o.sent| - 1]))
  }

  /** The request `token()` sends. */
  function TokenRequest(key: string): Request {
    Request(TokenMethod, map[ApiId := key])
  }

  datatype AuthMode = Simple | Enhanced(login: string, password: string)

  /** The choice `_call` makes: enhanced authentication for `sms/send` and
      `sms/cost` when the login (leading `+` signs removed) and the password
      are both non-empty; simple authentication otherwise. */
  function Auth(config: map<string, string>, name: string): (mode: AuthMode)
    ensures mode.Enhanced? <==>
      && name in SignedMethods
      && "login" in config && LStrip(config["login"], '+') != ""
      && "password" in config && config["password"] != ""
    ensures mode.Enhanced? ==>
      mode.login == LStrip(config["login"], '+') && mode.password == config["password"]
  {
    var login := LStrip(if "login" in config then config["login"] else "", '+');
    var password := if "password" in config then Some(config["password"]) else None;
    if name in SignedMethods && login != "" && password.Some? && password.value != "" then
      Enhanced(login, password.value)
    else
      Simple
  }

  /** The arguments of an enhanced-auth request: `api_id` is dropped and the
      login, the token and the signature are added; the caller's other
      arguments are kept. */
  function SignedArgs(args: map<string, string>, login: string, token: string, sig: string)
    : (signed: map<string, string>)
    ensures ApiId !in signed
    ensures "login" in signed && signed["login"] == login
    ensures "token" in signed && signed["token"] == token
    ensures "sig" in signed && signed["sig"] == sig
    ensures forall k :: k !in {ApiId, "login", "token", "sig"} ==>
      (k in signed <==> k in args) && (k in args ==> signed[k] == args[k])
  {
    args["login" := login]["token" := token]["sig" := sig] - {ApiId}
  }

  /** The simple-authentication branch of `_call`: one request carrying the
      caller's arguments and `api_id`, and the client's reading of the
      answer. */
  function Plain(c: Client, env: Env, name: string, entries: map<string, string>)
    : (o: Outcome<seq<string>>)
    requires c.Valid()
    ensures o.client == c
    ensures o.sent == [Request(name, entries[ApiId := c.config[ApiKey]])]
    ensures o.result.Ok? ==>
      && o.result.value == Lines(env.transport(o.sent[0]))
      && !IsEnvelopeCode(o.result.value[0])
    ensures o.result.Err? ==>
      Some(o.result.error) == EnvelopeError(Lines(env.transport(o.sent[0]))[0])
  {
    var request := Request(name, entries[ApiId := c.config[ApiKey]]);
    Outcome(c, [request], Exchange(env, request))
  }

  /** `_call(method, args)`. */
  function Call(c: Client, env: Env, clock: Clock, name: string, args: Args)
    : (o: Outcome<seq<string>>)
    requires c.Valid()
    ensures o.client.config == c.config
    ensures |o.sent| <= 2
    // what comes back is the answer to the method's own request
    ensures AnswersLast(env, name, o)
    // a non-dictionary is refused before anything happens
    ensures args.NotDict? ==> o == Outcome(c, [], Err(ValueError(ArgsNotDictionary)))
    // simple authentication: one request carrying `api_id`, no state change
    ensures args.Dict? && Auth(c.config, name).Simple? ==>
      && o.client == c
      && o.sent == [Request(name, args.entries[ApiId := c.config[ApiKey]])]
    // enhanced authentication: see `SignedCall`
    ensures args.Dict? && Auth(c.config, name).Enhanced? ==>
      var mode := Auth(c.config, name);
      o == SignedCall(c, env, clock, name, args.entries, mode.login, mode.password)
  {
    match args
    case NotDict => Outcome(c, [], Err(ValueError(ArgsNotDictionary)))
    case Dict(entries) => Dispatch(c, env, clock, name, entries)
  }

  /** `_call` once its arguments are known to be a dictionary: the branch is
      chosen by the authentication mode of the method. */
  function Dispatch(c: Client, env: Env, clock: Clock, name: string, entries: map<string, string>)
    : (o: Outcome<seq<string>>)
    requires c.Valid()
    ensures o.client.config == c.config
    ensures |o.sent| <= 2
    ensures AnswersLast(env, name, o)
    ensures Auth(c.config, name).Simple? ==> o == Plain(c, env, name, entries)
    ensures Auth(c.config, name).Enhanced? ==>
      var mode := Auth(c.config, name);
      o == SignedCall(c, env, clock, name, entries, mode.login, mode.password)
  {
    match Auth(c.config, name)
    case Simple => Plain(c, env, name, entries)
    case Enhanced(login, password) =>
      SignedCall(c, env, clock, name, entries, login, password)
  }

  /** The enhanced-authentication branch of `_call`: the token from
      `_get_token`, then one request signed with it. When it fetches and what
      it signs with are stated by `SignedCallFetches` and `SignedCallSigns`;
      the request going out by `SignedCallWithUsableToken` and
      `SignedCallAfterFetch`; the two ways it stops early by
      `SignedCallFetchFails` and `SignedCallNotAscii`. */
  function SignedCall(c: Client, env: Env, clock: Clock, name: string,
                      entries: map<string, string>, login: string, password: string)
    : (o: Outcome<seq<string>>)
    requires c.Valid() && name in SignedMethods
    ensures o.client.config == c.config
    ensures |o.sent| <= 2
    ensures AnswersLast(env, name, o)
  {
    var t := GetToken(c, env, clock);
    var o := Sign(t, env, name, entries, login, password);
    SignedCallShape(c, env, t, o, name, entries, login, password);
    o
  }

  /** The reasoning behind the contract of `SignedCall`, on the shapes
      `GetToken` and `Sign` promise. */
  lemma SignedCallShape(c: Client, env: Env, t: Outcome<string>, o: Outcome<seq<string>>,
                        name: string, entries: map<string, string>, login: string, password: string)
    requires c.Valid() && name != TokenMethod
    requires t.client.config == c.config
    requires t.sent == [] || t.sent == [TokenRequest(c.config[ApiKey])]
    requires o.client == t.client
    requires |o.sent| <= |t.sent| + 1
    requires t.result.Err? ==> o == Outcome(t.client, t.sent, Err(t.result.error))
    requires t.result.Ok? && !IsAscii(password + t.result.value) ==>
      o == Outcome(t.client, t.sent, Err(UnicodeError))
    requires t.result.Ok? && IsAscii(password + t.result.value) ==>
      var request := SignedRequest(env, name, entries, login, password, t.result.value);
      o.sent == t.sent + [request] && o.result == Exchange(env, request)
    ensures o.client.config == c.config
    ensures |o.sent| <= 2
    ensures AnswersLast(env, name, o)
  {
  }

  /** A signed call fetches a token exactly when none is usable: then its
      first request is the one `auth/get_token` request, and a token it holds
      afterwards is stamped with the time read after that fetch. With a
      usable token nothing is fetched and the cache is left as it was. */
  lemma SignedCallFetches(c: Client, env: Env, clock: Clock, name: string,
                          entries: map<string, string>, login: string, password: string)
    requires c.Valid() && name in SignedMethods
    ensures var o := SignedCall(c, env, clock, name, entries, login, password);
      && (forall i :: 1 <= i < |o.sent| ==> o.sent[i].name == name)
      && (Usable(c.cache, clock.before).Some? ==>
            o.client == c && |o.sent| <= 1 && (|o.sent| == 1 ==> o.sent[0].name == name))
      && (Usable(c.cache, clock.before).None? ==>
            && o.sent[0] == TokenRequest(c.config[ApiKey])
            && (o.client.cache.token.Some? ==>
                  o.client.cache == Store(o.client.cache.token.value, clock.after)))
  {
    var t := GetToken(c, env, clock);
    var token := if t.result.Ok? then t.result.value else "";
    FetchShape(c, clock, t, SignedCall(c, env, clock, name, entries, login, password),
               SignedRequest(env, name, entries, login, password, token));
  }

  /** The reasoning behind `SignedCallFetches`, on the shapes `GetToken` and
      `Sign` promise rather than on their definitions. */
  lemma FetchShape(c: Client, clock: Clock, t: Outcome<string>, o: Outcome<seq<string>>, request: Request)
    requires c.Valid() && request.name != TokenMethod
    requires Usable(c.cache, clock.before).Some? ==>
      t == Outcome(c, [], Ok(Usable(c.cache, clock.before).value))
    requires Usable(c.cache, clock.before).None? ==>
      && t.sent == [TokenRequest(c.config[ApiKey])]
      && (t.result.Ok? ==> t.client.cache == Store(t.result.value, clock.after))
      && (t.result.Err? ==> t.client.cache.token.None?)
    requires o.client == t.client
    requires o.sent == t.sent || (t.result.Ok? && o.sent == t.sent + [request])
    ensures forall i :: 1 <= i < |o.sent| ==> o.sent[i].name == request.name
    ensures Usable(c.cache, clock.before).Some? ==>
      o.client == c && |o.sent| <= 1 && (|o.sent| == 1 ==> o.sent[0].name == request.name)
    ensures Usable(c.cache, clock.before).None? ==>
      && o.sent[0] == TokenRequest(c.config[ApiKey])
      && (o.client.cache.token.Some? ==>
            o.client.cache == Store(o.client.cache.token.value, clock.after))
  {
  }

  /** The signed request drops `api_id` and carries the login, the token the
      cache now holds and the MD5 of the password followed by that token. */
  lemma SignedCallSigns(c: Client, env: Env, clock: Clock, name: string,
                        entries: map<string, string>, login: string, password: string)
    requires c.Valid() && name in SignedMethods
    ensures var o := SignedCall(c, env, clock, name, entries, login, password);
      && (o.result.Ok? ==> o.sent[|o.sent| - 1].name == name)
      && (|o.sent| > 0 && o.sent[|o.sent| - 1].name == name ==>
            && o.client.cache.token.Some?
            && o.sent[|o.sent| - 1].args
               == SignedArgs(entries, login, o.client.cache.token.value,
                             env.md5Hex(password + o.client.cache.token.value)))
  {
    SignShape(c, env, GetToken(c, env, clock), SignedCall(c, env, clock, name, entries, login, password),
              name, entries, login, password);
  }

  /** The reasoning behind `SignedCallSigns`, on the shapes `GetToken` and
      `Sign` promise. */
  lemma SignShape(c: Client, env: Env, t: Outcome<string>, o: Outcome<seq<string>>,
                  name: string, entries: map<string, string>, login: string, password: string)
    requires c.Valid() && name != TokenMethod
    requires t.sent == [] || t.sent == [TokenRequest(c.config[ApiKey])]
    requires t.result.Ok? ==> t.client.cache.token == Some(t.result.value)
    requires o.client == t.client
    requires o.sent == t.sent
      || (t.result.Ok? && o.sent == t.sent + [SignedRequest(env, name, entries, login, password, t.result.value)])
    requires o.result.Ok? ==> |o.sent| > |t.sent|
    ensures o.result.Ok? ==> o.sent[|o.sent| - 1].name == name
    ensures |o.sent| > 0 && o.sent[|o.sent| - 1].name == name ==>
      && o.client.cache.token.Some?
      && o.sent[|o.sent| - 1].args
         == SignedArgs(entries, login, o.client.cache.token.value,
                       env.md5Hex(password + o.client.cache.token.value))
  {
  }

  /** With a usable cached token and an ASCII password and token, a signed
      call fetches nothing: it sends the one signed request, keeps the client
      as it was and reads the answer to that request. */
  lemma SignedCallWithUsableToken(c: Client, env: Env, clock: Clock, name: string,
                                  entries: map<string, string>, login: string, password: string)
    requires c.Valid() && name in SignedMethods
    requires Usable(c.cache, clock.before).Some?
    requires IsAscii(password + Usable(c.cache, clock.before).value)
    ensures var token := Usable(c.cache, clock.before).value;
      var request := Request(name, SignedArgs(entries, login, token, env.md5Hex(password + token)));
      SignedCall(c, env, clock, name, entries, login, password) == Outcome(c, [request], Exchange(env, request))
  {
    var t := GetToken(c, env, clock);
    assert t == Outcome(c, [], Ok(Usable(c.cache, clock.before).value));
    assert [] + [SignedRequest(env, name, entries, login, password, t.result.value)]
        == [SignedRequest(env, name, entries, login, password, t.result.value)];
  }

  /** With no usable token, a token fetch that succeeds and an ASCII
      password and token, a signed call sends the `auth/get_token` request
      and then the request signed with the new token, caches that token
      stamped with the time read after the fetch, and reads the answer to
      the signed request. */
  lemma SignedCallAfterFetch(c: Client, env: Env, clock: Clock, name: string,
                             entries: map<string, string>, login: string, password: string)
    requires c.Valid() && name in SignedMethods
    requires Usable(c.cache, clock.before).None?
    requires Token(c, env).result.Ok?
    requires IsAscii(password + Token(c, env).result.value)
    ensures var token := Token(c, env).result.value;
      var request := Request(name, SignedArgs(entries, login, token, env.md5Hex(password + token)));
      SignedCall(c, env, clock, name, entries, login, password)
        == Outcome(c.(cache := Store(token, clock.after)), [TokenRequest(c.config[ApiKey]), request],
                   Exchange(env, request))
  {
    var t := GetToken(c, env, clock);
    assert t.client == c.(cache := Store(Token(c, env).result.value, clock.after));
    assert t.result == Token(c, env).result;
  }

  /** With no usable token and a token fetch that fails, a signed call ends
      with the fetch's error after the one `auth/get_token` request: nothing
      is signed, and the cache keeps no token. */
  lemma SignedCallFetchFails(c: Client, env: Env, clock: Clock, name: string,
                             entries: map<string, string>, login: string, password: string)
    requires c.Valid() && name in SignedMethods
    requires Usable(c.cache, clock.before).None?
    requires Token(c, env).result.Err?
    ensures SignedCall(c, env, clock, name, entries, login, password)
         == Outcome(c.(cache := TokenCache(None, c.cache.ts)), [TokenRequest(c.config[ApiKey])],
                    Err(Token(c, env).result.error))
  {
    var t := GetToken(c, env, clock);
    assert t.client == c.(cache := TokenCache(None, c.cache.ts));
    assert t.result == Token(c, env).result;
  }

  /** When the password followed by the token `_get_token` yields is not
      ASCII, a signed call raises `UnicodeError` before the signed request:
      it has sent only what `_get_token` sent and keeps its client. */
  lemma SignedCallNotAscii(c: Client, env: Env, clock: Clock, name: string,
                           entries: map<string, string>, login: string, password: string)
    requires c.Valid() && name in SignedMethods
    requires GetToken(c, env, clock).result.Ok?
    requires !IsAscii(password + GetToken(c, env, clock).result.value)
    ensures var t := GetToken(c, env, clock);
      SignedCall(c, env, clock, name, entries, login, password) == Outcome(t.client, t.sent, Err(UnicodeError))
  {
  }

  /** The request `_call` sends for `name` once it holds `token`. */
  function SignedRequest(env: Env, name: string, entries: map<string, string>,
                         login: string, password: string, token: string): (r: Request)
    ensures r.name == name
    ensures r.args == SignedArgs(entries, login, token, env.md5Hex(password + token))
  {
    Request(name, SignedArgs(entries, login, token, env.md5Hex(password + token)))
  }

  /** The signing step once `_get_token` has answered with `t`. */
  function Sign(t: Outcome<string>, env: Env, name: string,
                entries: map<string, string>, login: string, password: string)
    : (o: Outcome<seq<string>>)
    requires t.result.Ok? ==> t.client.cache.token == Some(t.result.value)
    ensures o.client == t.client
    ensures o.sent == t.sent
      || (t.result.Ok? && o.sent == t.sent + [SignedRequest(env, name, entries, login, password, t.result.value)])
    ensures |o.sent| <= |t.sent| + 1
    ensures t.result.Err? ==> o == Outcome(t.client, t.sent, Err(t.result.error))
    ensures t.result.Ok? && !IsAscii(password + t.result.value) ==>
      o == Outcome(t.client, t.sent, Err(UnicodeError))
    ensures t.result.Ok? && IsAscii(password + t.result.value) ==>
      var request := SignedRequest(env, name, entries, login, password, t.result.value);
      o.sent == t.sent + [request] && o.result == Exchange(env, request)
    ensures o.result.Ok? ==>
      && |o.sent| > |t.sent|
      && o.result.value == Lines(env.transport(o.sent[|o.sent| - 1]))
      && !IsEnvelopeCode(o.result.value[0])
  {
    match t.result
    case Err(e) => Outcome(t.client, t.sent, Err(e))
    case Ok(token) =>
      // `password + token` mixes unicode and a byte string, and MD5 hashes
      // it as ASCII: Python 2 raises on any other character
      if !IsAscii(password + token) then
        Outcome(t.client, t.sent, Err(UnicodeError))
      else
        var request := SignedRequest(env, name, entries, login, password, token);
        Outcome(t.client, t.sent + [request], Exchange(env, request))
  }

  /** `_get_token()`: the cached token while it is fresh, otherwise exactly
      one `auth/get_token` request, whose answer is cached with the time read
      after the fetch. */
  function GetToken(c: Client, env: Env, clock: Clock): (o: Outcome<string>)
    requires c.Valid()
    ensures o.client.config == c.config
    ensures o.sent == [] || o.sent == [TokenRequest(c.config[ApiKey])]
    ensures o.result.Ok? ==> o.client.cache.token == Some(o.result.value)
    ensures Usable(c.cache, clock.before).Some? ==>
      o == Outcome(c, [], Ok(Usable(c.cache, clock.before).value))
    ensures Usable(c.cache, clock.before).None? ==>
      && o.sent == [TokenRequest(c.config[ApiKey])]
      && o.result == Token(c, env).result
      && (o.result.Ok? ==> o.client.cache == Store(o.result.value, clock.after))
      && (o.result.Err? ==> o.client.cache == TokenCache(None, c.cache.ts))
  {
    var cache := Expire(c.cache, clock.before);
    if cache.token.Some? then
      Outcome(c, [], Ok(cache.token.value))
    else
      var t := Token(c.(cache := cache), env);
      match t.result
      case Ok(token) => Outcome(t.client.(cache := Store(token, clock.after)), t.sent, Ok(token))
      case Err(e) => Outcome(t.client, t.sent, Err(e))
  }

  /** `token()`: the first line of the `auth/get_token` answer. The method
      is not one that signs, so `_call` takes its simple-authentication
      branch (`TokenIsPlainCall`); the cache is never touched. */
  function Token(c: Client, env: Env): (o: Outcome<string>)
    requires c.Valid()
    ensures o.client == c
    ensures o.sent == [TokenRequest(c.config[ApiKey])]
    ensures var first := Lines(env.transport(o.sent[0]))[0];
      o.result == if IsEnvelopeCode(first) then Err(EnvelopeError(first).value) else Ok(first)
  {
    var o := Plain(c, env, TokenMethod, map[]);
    assert map[][ApiId := c.config[ApiKey]] == map[ApiId := c.config[ApiKey]];
    match o.result
    case Ok(lines) => Outcome(o.client, o.sent, Ok(lines[0]))
    case Err(e) => Outcome(o.client, o.sent, Err(e))
  }

  /** `token()` is `_call("auth/get_token", {})` followed by taking the first
      line, whatever the configuration and the clock. */
  lemma TokenIsPlainCall(c: Client, env: Env, clock: Clock)
    requires c.Valid()
    ensures var o := Call(c, env, clock, TokenMethod, Dict(map[]));
      && Token(c, env).client == o.client
      && Token(c, env).sent == o.sent
      && (o.result.Ok? ==> Token(c, env).result == Ok(o.result.value[0]))
      && (o.result.Err? ==> Token(c, env).result == Err(o.result.error))
  {
    assert Auth(c.config, TokenMethod).Simple?;
  }
}

=== FILE: config.dfy ===
/** The configuration of the client: choosing the configuration file and
    reading its `key=value` lines into a mapping.

    The file system is not modelled: the candidate files (the user-level
    file, then the system-level one) are given as their contents, `None` for a
    file that does not exist. */
module Config {
  import opened Errors
  import opened Text

  /** The first existing candidate wins; later candidates are never read,
      even when the first one turns out to be malformed. */
  function FirstPresent(candidates: seq<Option<string>>): (found: Option<string>)
    ensures found.None? <==> forall i :: 0 <= i < |candidates| ==> candidates[i].None?
    ensures found.Some? ==>
      exists i :: 0 <= i < |candidates| && candidates[i] == found
        && forall j :: 0 <= j < i ==> candidates[j].None?
    decreases |candidates|
  {
    if |candidates| == 0 then None
    else if candidates[0].Some? then
      candidates[0]
    else
      var found := FirstPresent(candidates[1..]);
      if found.Some? then
        var i :| 0 <= i < |candidates[1..]| && candidates[1..][i] == found
          && forall j :: 0 <= j < i ==> candidates[1..][j].None?;
        assert candidates[i + 1] == found;
        found
      else
        found
  }

  /** The position of the first line without `=`, or the number of lines
      when every line has one. */
  function FirstMalformed(lines: seq<string>): (k: nat)
    ensures k <= |lines|
    ensures k < |lines| ==> '=' !in lines[k]
    ensures forall j :: 0 <= j < k ==> '=' in lines[j]
    decreases |lines|
  {
    if |lines| == 0 then 0
    else if '=' !in lines[0] then 0
    else 1 + FirstMalformed(lines[1..])
  }

  /** A line with a `=` read as a key and a value: split at the first `=`
      only, both sides stripped of whitespace. */
  function Entry(line: string): (e: (string, string))
    requires '=' in line
    ensures exists before, after ::
      before + "=" + after == line && '=' !in before
        && e == (Strip(before, UnicodeSpace), Strip(after, UnicodeSpace))
  {
    var parts := SplitOnce(line, '=').value;
    assert parts.0 + "=" + parts.1 == line;
    (Strip(parts.0, UnicodeSpace), Strip(parts.1, UnicodeSpace))
  }

  function Entries(lines: seq<string>): (pairs: seq<(string, string)>)
    requires forall i :: 0 <= i < |lines| ==> '=' in lines[i]
    ensures |pairs| == |lines|
    ensures forall i :: 0 <= i < |lines| ==> pairs[i] == Entry(lines[i])
    decreases |lines|
  {
    if |lines| == 0 then [] else [Entry(lines[0])] + Entries(lines[1..])
  }

  /** Python's `dict(pairs)`: the pairs are inserted in order, so a later
      pair overrides an earlier one with the same key. */
  function ToMap(pairs: seq<(string, string)>): (m: map<string, string>)
    ensures forall k :: k in m <==> exists i :: 0 <= i < |pairs| && pairs[i].0 == k
    decreases |pairs|
  {
    if |pairs| == 0 then map[]
    else
      var n := |pairs| - 1;
      var m := ToMap(pairs[..n]);
      assert forall i :: 0 <= i < n ==> pairs[..n][i] == pairs[i];
      m[pairs[n].0 := pairs[n].1]
  }

  /** `v` is the value of the last pair whose key is `k`. */
  ghost predicate LastBinding(pairs: seq<(string, string)>, k: string, v: string) {
    exists i :: 0 <= i < |pairs| && pairs[i] == (k, v)
      && forall j :: i < j < |pairs| ==> pairs[j].0 != k
  }

  /** When the last pair has key `k`, its value is the binding of `k`. */
  lemma LastBindingAtEnd(pairs: seq<(string, string)>, k: string, v: string)
    requires |pairs| > 0 && pairs[|pairs| - 1].0 == k
    ensures LastBinding(pairs, k, v) <==> v == pairs[|pairs| - 1].1
  {
    var n := |pairs| - 1;
    if v == pairs[n].1 {
      assert pairs[n] == (k, v);
    }
    if LastBinding(pairs, k, v) {
      var i :| 0 <= i < |pairs| && pairs[i] == (k, v)
        && forall j :: i < j < |pairs| ==> pairs[j].0 != k;
      assert i == n;
    }
  }

  /** A last pair with another key does not affect the binding of `k`. */
  lemma LastBindingSkip(pairs: seq<(string, string)>, k: string, v: string)
    requires |pairs| > 0 && pairs[|pairs| - 1].0 != k
    ensures LastBinding(pairs, k, v) <==> LastBinding(pairs[..|pairs| - 1], k, v)
  {
    var n := |pairs| - 1;
    var init := pairs[..n];
    if LastBinding(init, k, v) {
      var i :| 0 <= i < |init| && init[i] == (k, v)
        && forall j :: i < j < |init| ==> init[j].0 != k;
      assert pairs[i] == (k, v);
      assert forall j :: i < j < |pairs| ==> pairs[j].0 != k by {
        forall j | i < j < |pairs|
          ensures pairs[j].0 != k
        {
          if j < n {
            assert pairs[j] == init[j];
          }
        }
      }
    }
    if LastBinding(pairs, k, v) {
      var i :| 0 <= i < |pairs| && pairs[i] == (k, v)
        && forall j :: i < j < |pairs| ==> pairs[j].0 != k;
      assert i < n;
      assert init[i] == (k, v);
      assert forall j :: i < j < |init| ==> init[j].0 != k by {
        forall j | i < j < |init|
          ensures init[j].0 != k
        {
          assert init[j] == pairs[j];
        }
      }
    }
  }

  /** The mapping binds each key to the value of its last occurrence. */
  lemma {:induction false} ToMapLastWins(pairs: seq<(string, string)>, k: string, v: string)
    ensures (k in ToMap(pairs) && ToMap(pairs)[k] == v) <==> LastBinding(pairs, k, v)
    decreases |pairs|
  {
    if |pairs| > 0 {
      var n := |pairs| - 1;
      if pairs[n].0 == k {
        LastBindingAtEnd(pairs, k, v);
      } else {
        ToMapLastWins(pairs[..n], k, v);
        LastBindingSkip(pairs, k, v);
      }
    }
  }

  /** The parsing step of `_load_config`: every line must hold a `=`,
      otherwise `dict()` raises `ValueError` naming the first one without. */
  function ParseConfig(raw: string): (r: Result<map<string, string>>)
    ensures r.Ok? <==> forall i :: 0 <= i < |Lines(raw)| ==> '=' in Lines(raw)[i]
    ensures r.Err? ==>
      var k := FirstMalformed(Lines(raw));
      r.error == ValueError(ConfigLineWithoutEquals(k)) && '=' !in Lines(raw)[k]
  {
    var lines := Lines(raw);
    var k := FirstMalformed(lines);
    if k < |lines| then Err(ValueError(ConfigLineWithoutEquals(k)))
    else Ok(ToMap(Entries(lines)))
  }

  /** What a parsed configuration holds: `k` maps to `v` exactly when some
      line reads as `k = v` and no later line has the key `k`. */
  lemma ParsedBindings(raw: string, k: string, v: string)
    requires ParseConfig(raw).Ok?
    ensures var m := ParseConfig(raw).value;
      (k in m && m[k] == v) <==> LastBinding(Entries(Lines(raw)), k, v)
  {
    ToMapLastWins(Entries(Lines(raw)), k, v);
  }

  /** An empty file is malformed, because `"".split("\n")` is `[""]` and
      the empty line has no `=`. */
  lemma EmptyFileIsMalformed()
    ensures ParseConfig("") == Err(ValueError(ConfigLineWithoutEquals(0)))
  {
    assert Lines("") == [""];
  }

  /** A blank line inside the file is malformed too: between a first line
      with a `=` and any last line, it is the line `dict()` rejects. */
  lemma BlankLineIsMalformed(first: string, last: string)
    requires '=' in first && '\n' !in first && '\n' !in last
    requires |first| > 0 && !ByteSpace(first[0])
    requires |last| > 0 && !ByteSpace(last[|last| - 1])
    ensures ParseConfig(first + "\n\n" + last) == Err(ValueError(ConfigLineWithoutEquals(1)))
  {
    var s := first + "\n\n" + last;
    var lines := [first, "", last];
    JoinThree(first, "", last);
    assert first + "\n" + "" + "\n" + last == s;
    assert s[0] == first[0] && s[|s| - 1] == last[|last| - 1];
    LinesOf(s, lines);
    assert FirstMalformed(lines) == 1;
  }
}

=== FILE: decode.dfy ===
/** How each public method reads the response lines `_call` hands back. The
    lines are never empty and never start with an envelope code when they
    come from `_call`, but the decoders are total and answer `IndexError`
    wherever the client would index past the end. */
module Decode {
  import opened Errors
  import opened Text
  import opened StatusTables

  const Success := "100"

  datatype SendReport = SendReport(code: int, description: string, messageId: Option<string>)
  datatype StatusReport = StatusReport(code: int, description: string)
  datatype CostReport = CostReport(code: int, description: string, cost: Option<string>, length: Option<string>)

  /** The response lines as a Python list that can also hold `None`. */
  function Padded(lines: seq<string>, pad: nat): (res: seq<Option<string>>)
    ensures |res| == |lines| + pad
    ensures forall i :: 0 <= i < |lines| ==> res[i] == Some(lines[i])
    ensures forall i :: |lines| <= i < |res| ==> res[i] == None
  {
    seq(|lines|, i requires 0 <= i < |lines| => Some(lines[i])) + seq(pad, _ => None)
  }

  /** `int(line)` raising `ValueError` on text that is not an integer. */
  function ReadInt(line: string): (r: Result<int>)
    ensures r.Ok? <==> ParseInt(line).Some?
    ensures r.Ok? ==> r.value == ParseInt(line).value
    ensures r.Err? ==> r.error == ValueError(NotAnInteger(line))
  {
    match ParseInt(line)
    case Some(n) => Ok(n)
    case None => Err(ValueError(NotAnInteger(line)))
  }

  /** The decoding part of `send`: when the first line is not "100" a `None`
      is appended, and the third component is whatever is then second. So a
      rejected message still reports the server's second line when there is
      one, and an accepted message without a second line fails on the
      index. */
  function DecodeSend(lines: seq<string>): (r: Result<SendReport>)
    ensures |lines| == 0 ==> r == Err(IndexError)
    ensures |lines| > 0 && ParseInt(lines[0]).None? ==> r == Err(ValueError(NotAnInteger(lines[0])))
    ensures |lines| > 0 ==>
      && (r.Ok? <==> ParseInt(lines[0]).Some? && (|lines| >= 2 || lines[0] != Success))
      && (r == Err(IndexError) <==> lines[0] == Success && |lines| == 1)
    ensures r.Ok? ==>
      && r.value.code == ParseInt(lines[0]).value
      && r.value.description == Describe(SendStatus, r.value.code)
      && r.value.messageId == (if |lines| >= 2 then Some(lines[1]) else None)
      && (r.value.messageId.None? <==> lines[0] != Success && |lines| == 1)
  {
    if |lines| == 0 then Err(IndexError)
    else
      var res := Padded(lines, if lines[0] != Success then 1 else 0);
      match ReadInt(lines[0])
      case Err(e) => Err(e)
      case Ok(code) =>
        var text := Describe(SendStatus, code);
        if |res| < 2 then Err(IndexError) else Ok(SendReport(code, text, res[1]))
  }

  /** The decoding part of `status`: the first line read as a delivery
      code; any further lines are ignored. */
  function DecodeStatus(lines: seq<string>): (r: Result<StatusReport>)
    ensures |lines| == 0 ==> r == Err(IndexError)
    ensures |lines| > 0 && ParseInt(lines[0]).None? ==> r == Err(ValueError(NotAnInteger(lines[0])))
    ensures |lines| > 0 ==> (r.Ok? <==> ParseInt(lines[0]).Some?)
    ensures r.Ok? ==>
      && r.value.code == ParseInt(lines[0]).value
      && r.value.description == Describe(DeliveryStatus, r.value.code)
  {
    if |lines| == 0 then Err(IndexError)
    else
      match ReadInt(lines[0])
      case Err(e) => Err(e)
      case Ok(code) => Ok(StatusReport(code, Describe(DeliveryStatus, code)))
  }

  /** The decoding part of `cost`: two `None`s are appended when the first
      line is not "100", and the second and third entries are returned. */
  function DecodeCost(lines: seq<string>): (r: Result<CostReport>)
    ensures |lines| == 0 ==> r == Err(IndexError)
    ensures |lines| > 0 && ParseInt(lines[0]).None? ==> r == Err(ValueError(NotAnInteger(lines[0])))
    ensures |lines| > 0 ==>
      && (r.Ok? <==> ParseInt(lines[0]).Some? && (|lines| >= 3 || lines[0] != Success))
      && (r == Err(IndexError) <==> lines[0] == Success && |lines| < 3)
    ensures r.Ok? ==>
      && r.value.code == ParseInt(lines[0]).value
      && r.value.description == Describe(CostStatus, r.value.code)
      && r.value.cost == (if |lines| >= 2 then Some(lines[1]) else None)
      && r.value.length == (if |lines| >= 3 then Some(lines[2]) else None)
  {
    if |lines| == 0 then Err(IndexError)
    else
      var res := Padded(lines, if lines[0] != Success then 2 else 0);
      match ReadInt(lines[0])
      case Err(e) => Err(e)
      case Ok(code) =>
        var text := Describe(CostStatus, code);
        if |res| < 3 then Err(IndexError) else Ok(CostReport(code, text, res[1], res[2]))
  }

  /** The decoding part of `balance`: the second line when the first is
      "100", otherwise a bare error carrying the first line. The second line
      is returned as text: its conversion to a float is not modelled. */
  function DecodeBalance(lines: seq<string>): (r: Result<string>)
    ensures |lines| == 0 ==> r == Err(IndexError)
    ensures |lines| > 0 && lines[0] != Success ==> r == Err(RemoteFailure(lines[0]))
    ensures |lines| > 0 && lines[0] == Success ==>
      r == if |lines| >= 2 then Ok(lines[1]) else Err(IndexError)
  {
    if |lines| == 0 then Err(IndexError)
    else if lines[0] == Success then
      if |lines| < 2 then Err(IndexError) else Ok(lines[1])
    else Err(RemoteFailure(lines[0]))
  }

  /** The decoding part of `limit`: like `balance`, with the second line
      read as an integer. */
  function DecodeLimit(lines: seq<string>): (r: Result<int>)
    ensures r.Ok? <==> |lines| >= 2 && lines[0] == Success && ParseInt(lines[1]).Some?
    ensures r.Ok? ==> r.value == ParseInt(lines[1]).value
    ensures |lines| > 0 && lines[0] != Success ==> r == Err(RemoteFailure(lines[0]))
    ensures |lines| == 0 || (|lines| == 1 && lines[0] == Success) ==> r == Err(IndexError)
    ensures |lines| >= 2 && lines[0] == Success && ParseInt(lines[1]).None? ==>
      r == Err(ValueError(NotAnInteger(lines[1])))
  {
    match DecodeBalance(lines)
    case Err(e) => Err(e)
    case Ok(second) => ReadInt(second)
  }

  // ---------------------------------------------------------------------
  // Reading back what the server writes

  /** A server answer: the code written as `str(code)` on the first line,
      then the fields of the answer, one per line. */
  function Answer(code: int, fields: seq<string>): (lines: seq<string>)
    ensures |lines| == |fields| + 1 && lines[0] == ShowInt(code) && lines[1..] == fields
  {
    [ShowInt(code)] + fields
  }

  /** The first line of an answer is the success line exactly when its
      code is 100. */
  lemma SuccessLine(code: int)
    ensures ShowInt(code) == Success <==> code == 100
  {
    assert ShowNat(1) == "1";
    assert ShowNat(10) == ShowNat(1) + "0";
    assert ShowInt(100) == ShowNat(10) + "0";
    if ShowInt(code) == Success {
      ParseShowInt(code);
      ReadsThreeDigits(Success);
    }
  }

  /** `send` reads back every answer: the code, its description, and the
      first field as the id whenever there is one. Only code 100 without a
      field fails. */
  lemma SendAnswerRead(code: int, fields: seq<string>)
    ensures DecodeSend(Answer(code, fields))
         == if code == 100 && |fields| == 0 then Err(IndexError)
            else Ok(SendReport(code, Describe(SendStatus, code), if |fields| > 0 then Some(fields[0]) else None))
  {
    ParseShowInt(code);
    SuccessLine(code);
    var lines := Answer(code, fields);
    if |fields| > 0 {
      assert lines[1] == fields[0];
    }
  }

  /** `status` reads back the code of every answer and describes it. */
  lemma StatusAnswerRead(code: int, fields: seq<string>)
    ensures DecodeStatus(Answer(code, fields)) == Ok(StatusReport(code, Describe(DeliveryStatus, code)))
  {
    ParseShowInt(code);
  }

  /** `cost` reads back every answer: the code, its description, and the
      first two fields as cost and length where present. Only code 100 with
      fewer than two fields fails. */
  lemma CostAnswerRead(code: int, fields: seq<string>)
    ensures DecodeCost(Answer(code, fields))
         == if code == 100 && |fields| < 2 then Err(IndexError)
            else Ok(CostReport(code, Describe(CostStatus, code),
                               if |fields| > 0 then Some(fields[0]) else None,
                               if |fields| > 1 then Some(fields[1]) else None))
  {
    ParseShowInt(code);
    SuccessLine(code);
    var lines := Answer(code, fields);
    if |fields| > 0 {
      assert lines[1] == fields[0];
    }
    if |fields| > 1 {
      assert lines[2] == fields[1];
    }
  }

  /** `balance` reads back the first field of a code-100 answer, and raises
      any other code as its text. */
  lemma BalanceAnswerRead(code: int, fields: seq<string>)
    ensures DecodeBalance(Answer(code, fields))
         == if code != 100 then Err(RemoteFailure(ShowInt(code)))
            else if |fields| == 0 then Err(IndexError)
            else Ok(fields[0])
  {
    SuccessLine(code);
    if |fields| > 0 {
      assert Answer(code, fields)[1] == fields[0];
    }
  }

  /** `limit` reads back the number a code-100 answer writes, and raises any
      other code as its text. */
  lemma LimitAnswerRead(code: int, n: int, fields: seq<string>)
    ensures DecodeLimit(Answer(code, [ShowInt(n)] + fields))
         == if code == 100 then Ok(n) else Err(RemoteFailure(ShowInt(code)))
  {
    SuccessLine(code);
    ParseShowInt(n);
    assert Answer(code, [ShowInt(n)] + fields)[1] == ShowInt(n);
  }
}

=== FILE: errors.dfy ===
/** The value and failure types shared by every part of the sms.ru client model.

    The client signals failure with Python exceptions; here each exception the
    client can raise is one constructor of `Error`, and every operation returns
    a `Result` instead of raising. */
module Errors {

  /** An optional value; `None` also stands for Python's `None`. */
  datatype Option<+T> = None | Some(value: T)

  /** Why the client reports `NotConfigured`. */
  datatype ConfigProblem =
    | ConfigFileNotFound   // no candidate configuration file exists
    | ApiKeyNotSet         // the configuration has no `key` entry
    | WrongPassword        // the server answered 301

  /** The protocol-usage faults the server reports as `InternalError`. */
  datatype ProtocolFault =
    | GetInsteadOfPost     // the server answered 210
    | UnknownMethod        // the server answered 211

  /** The situations in which the client raises Python's `ValueError`. */
  datatype BadValue =
    | ArgsNotDictionary                 // `_call` was given something other than a dict
    | MessageNotUnicode                 // `send` was given a byte string
    | ConfigLineWithoutEquals(index: nat)  // `dict()` met a one-element entry at this position
    | NotAnInteger(text: string)        // `int()` could not read this text

  datatype Error =
    | NotConfigured(problem: ConfigProblem)
    | WrongKey                       // the server answered 200
    | InternalError(fault: ProtocolFault)
    | Unavailable                    // the server answered 220
    | ValueError(bad: BadValue)
    | UnicodeError                   // Python 2's implicit ASCII conversion of text failed
    | IndexError                     // a response line the caller reads does not exist
    | RemoteFailure(code: string)    // the bare `Exception(code)` of `balance` and `limit`

  /** Either the value an operation returns or the error it raises. */
  datatype Result<+T> = Ok(value: T) | Err(error: Error)
}

=== FILE: properties.dfy ===
/** Properties of the client as a whole: which authentication each call
    uses, how the token cache saves round trips, that the envelope codes mean
    the same thing for every operation, and example exchanges. */
module Properties {
  import opened Errors
  import opened Text
  import opened Tokens
  import opened StatusTables
  import opened Decode
  import opened SmsClient
  import opened Api
  import Config

  /** A request authenticated by the API key alone. */
  predicate SimpleAuthRequest(r: Request, key: string) {
    && ApiId in r.args && r.args[ApiId] == key
    && "login" !in r.args && "token" !in r.args && "sig" !in r.args
  }

  /** A request authenticated by login, token and signature. */
  predicate EnhancedAuthRequest(r: Request, login: string, password: string, token: string,
                                md5Hex: string -> string) {
    && ApiId !in r.args
    && "login" in r.args && r.args["login"] == login
    && "token" in r.args && r.args["token"] == token
    && "sig" in r.args && r.args["sig"] == md5Hex(password + token)
  }

  /** How many `auth/get_token` requests a trace holds. */
  function TokenFetches(sent: seq<Request>): nat
    decreases |sent|
  {
    if |sent| == 0 then 0
    else TokenFetches(sent[..|sent| - 1]) + (if sent[|sent| - 1].name == TokenMethod then 1 else 0)
  }

  lemma {:induction false} TokenFetchesAppend(a: seq<Request>, b: seq<Request>)
    ensures TokenFetches(a + b) == TokenFetches(a) + TokenFetches(b)
    decreases |b|
  {
    if |b| > 0 {
      assert (a + b)[..|a + b| - 1] == a + b[..|b| - 1];
      TokenFetchesAppend(a, b[..|b| - 1]);
    } else {
      assert a + b == a;
    }
  }

  lemma {:induction false} NoTokenFetches(sent: seq<Request>)
    requires forall i :: 0 <= i < |sent| ==> sent[i].name != TokenMethod
    ensures TokenFetches(sent) == 0
    decreases |sent|
  {
    if |sent| > 0 {
      NoTokenFetches(sent[..|sent| - 1]);
    }
  }

  // ---------------------------------------------------------------------
  // Authentication

  /** When the configuration does not enable signing (no login after
      removing leading `+`, or no password), `send` and `cost` send exactly
      one request, authenticated by `api_id`, and leave the client unchanged
      (the other operations always do: `OtherCallsUseApiKey`). */
  lemma SimpleModeSendAndCostUseApiKey(c: Client, env: Env, clock: Clock,
                                       to: string, text: string, express: bool, test: bool)
    requires c.Valid() && Auth(c.config, SendMethod).Simple?
    ensures var send := Send(c, env, clock, to, Unicode(text), express, test);
      send.client == c && |send.sent| == 1 && SimpleAuthRequest(send.sent[0], c.config[ApiKey])
    ensures var cost := Cost(c, env, clock, to, Unicode(text));
      cost.client == c && |cost.sent| == 1 && SimpleAuthRequest(cost.sent[0], c.config[ApiKey])
  {
    SameModeForSignedMethods(c.config, SendMethod, CostMethod);
    var args := SendArgs(c.config, to, text, express, test);
    assert "login" !in args && "token" !in args && "sig" !in args by {
      assert forall k :: k in args ==> k in {"to", "text", "from", "express", "test"};
    }
  }

  /** With a login (after removing leading `+`) and a password, `send`
      signs its request: the arguments of `send` without `api_id`, plus the
      login, the token the client now caches and, as `sig`, the MD5 of the
      password followed by that token. */
  lemma LoginAndPasswordSignSend(c: Client, env: Env, clock: Clock,
                                 to: string, text: string, express: bool, test: bool)
    requires c.Valid() && Auth(c.config, SendMethod).Enhanced?
    ensures var send := Send(c, env, clock, to, Unicode(text), express, test);
      var mode := Auth(c.config, SendMethod);
      |send.sent| > 0 && send.sent[|send.sent| - 1].name == SendMethod ==>
        && send.client.cache.token.Some?
        && var token := send.client.cache.token.value;
        && send.sent[|send.sent| - 1].args
           == SignedArgs(SendArgs(c.config, to, text, express, test), mode.login, token,
                         env.md5Hex(mode.password + token))
        && EnhancedAuthRequest(send.sent[|send.sent| - 1], mode.login, mode.password, token, env.md5Hex)
  {
    var mode := Auth(c.config, SendMethod);
    var args := SendArgs(c.config, to, text, express, test);
    assert Send(c, env, clock, to, Unicode(text), express, test).sent
        == SignedCall(c, env, clock, SendMethod, args, mode.login, mode.password).sent;
    assert Send(c, env, clock, to, Unicode(text), express, test).client
        == SignedCall(c, env, clock, SendMethod, args, mode.login, mode.password).client;
    SignedCallSigns(c, env, clock, SendMethod, args, mode.login, mode.password);
  }

  /** The same for `cost`, whose arguments are the recipient and the text. */
  lemma LoginAndPasswordSignCost(c: Client, env: Env, clock: Clock, to: string, text: string)
    requires c.Valid() && Auth(c.config, CostMethod).Enhanced?
    ensures var cost := Cost(c, env, clock, to, Unicode(text));
      var mode := Auth(c.config, CostMethod);
      |cost.sent| > 0 && cost.sent[|cost.sent| - 1].name == CostMethod ==>
        && cost.client.cache.token.Some?
        && var token := cost.client.cache.token.value;
        && cost.sent[|cost.sent| - 1].args
           == SignedArgs(map["to" := to, "text" := text], mode.login, token,
                         env.md5Hex(mode.password + token))
        && EnhancedAuthRequest(cost.sent[|cost.sent| - 1], mode.login, mode.password, token, env.md5Hex)
  {
    var mode := Auth(c.config, CostMethod);
    var args := map["to" := to, "text" := text];
    assert Cost(c, env, clock, to, Unicode(text)).sent
        == SignedCall(c, env, clock, CostMethod, args, mode.login, mode.password).sent;
    assert Cost(c, env, clock, to, Unicode(text)).client
        == SignedCall(c, env, clock, CostMethod, args, mode.login, mode.password).client;
    SignedCallSigns(c, env, clock, CostMethod, args, mode.login, mode.password);
  }

  /** With signing enabled, a usable cached token and an ASCII password and
      token, `send` sends exactly one request, the signed one, keeps the
      client as it was and reads the answer to that request. */
  lemma SignedSendGoesOut(c: Client, env: Env, clock: Clock,
                          to: string, text: string, express: bool, test: bool)
    requires c.Valid() && Auth(c.config, SendMethod).Enhanced?
    requires Usable(c.cache, clock.before).Some?
    requires IsAscii(Auth(c.config, SendMethod).password + Usable(c.cache, clock.before).value)
    ensures var send := Send(c, env, clock, to, Unicode(text), express, test);
      var mode := Auth(c.config, SendMethod);
      var token := Usable(c.cache, clock.before).value;
      var request := Request(SendMethod, SignedArgs(SendArgs(c.config, to, text, express, test),
                                                    mode.login, token, env.md5Hex(mode.password + token)));
      && send.client == c
      && send.sent == [request]
      && send.result == Then(Outcome(c, [request], Exchange(env, request)), DecodeSend).result
  {
    var mode := Auth(c.config, SendMethod);
    var args := SendArgs(c.config, to, text, express, test);
    SignedCallWithUsableToken(c, env, clock, SendMethod, args, mode.login, mode.password);
  }

  /** With signing enabled and no usable token, a token fetch that succeeds
      and an ASCII password and token, `send` sends the `auth/get_token`
      request and then the signed `sms/send` request, caches the new token
      stamped with the later clock reading, and decodes the signed request's
      answer. */
  lemma SignedSendAfterFetch(c: Client, env: Env, clock: Clock,
                             to: string, text: string, express: bool, test: bool)
    requires c.Valid() && Auth(c.config, SendMethod).Enhanced?
    requires Usable(c.cache, clock.before).None?
    requires Token(c, env).result.Ok?
    requires IsAscii(Auth(c.config, SendMethod).password + Token(c, env).result.value)
    ensures var send := Send(c, env, clock, to, Unicode(text), express, test);
      var mode := Auth(c.config, SendMethod);
      var token := Token(c, env).result.value;
      var request := Request(SendMethod, SignedArgs(SendArgs(c.config, to, text, express, test),
                                                    mode.login, token, env.md5Hex(mode.password + token)));
      && send.client == c.(cache := Store(token, clock.after))
      && send.sent == [TokenRequest(c.config[ApiKey]), request]
      && send.result == Then(Outcome(send.client, send.sent, Exchange(env, request)), DecodeSend).result
  {
    var mode := Auth(c.config, SendMethod);
    var args := SendArgs(c.config, to, text, express, test);
    SignedCallAfterFetch(c, env, clock, SendMethod, args, mode.login, mode.password);
  }

  /** With signing enabled, no usable token and a token fetch that fails,
      `send` fails with the fetch's error after the one `auth/get_token`
      request, and the client keeps no token. */
  lemma SignedSendFetchFails(c: Client, env: Env, clock: Clock,
                             to: string, text: string, express: bool, test: bool)
    requires c.Valid() && Auth(c.config, SendMethod).Enhanced?
    requires Usable(c.cache, clock.before).None?
    requires Token(c, env).result.Err?
    ensures Send(c, env, clock, to, Unicode(text), express, test)
         == Outcome(c.(cache := TokenCache(None, c.cache.ts)), [TokenRequest(c.config[ApiKey])],
                    Err(Token(c, env).result.error))
  {
    var mode := Auth(c.config, SendMethod);
    var args := SendArgs(c.config, to, text, express, test);
    SignedCallFetchFails(c, env, clock, SendMethod, args, mode.login, mode.password);
  }

  /** With signing enabled, a usable cached token and an ASCII password and
      token, `cost` sends exactly one request, the signed one, keeps the
      client as it was and decodes the answer to that request. */
  lemma SignedCostGoesOut(c: Client, env: Env, clock: Clock, to: string, text: string)
    requires c.Valid() && Auth(c.config, CostMethod).Enhanced?
    requires Usable(c.cache, clock.before).Some?
    requires IsAscii(Auth(c.config, CostMethod).password + Usable(c.cache, clock.before).value)
    ensures var cost := Cost(c, env, clock, to, Unicode(text));
      var mode := Auth(c.config, CostMethod);
      var token := Usable(c.cache, clock.before).value;
      var request := Request(CostMethod, SignedArgs(map["to" := to, "text" := text],
                                                    mode.login, token, env.md5Hex(mode.password + token)));
      && cost.client == c
      && cost.sent == [request]
      && cost.result == Then(Outcome(c, [request], Exchange(env, request)), DecodeCost).result
  {
    var mode := Auth(c.config, CostMethod);
    SignedCallWithUsableToken(c, env, clock, CostMethod, map["to" := to, "text" := text], mode.login, mode.password);
  }

  /** With signing enabled and no usable token, a token fetch that succeeds
      and an ASCII password and token, `cost` fetches once, then sends the
      signed `sms/cost` request and decodes its answer. */
  lemma SignedCostAfterFetch(c: Client, env: Env, clock: Clock, to: string, text: string)
    requires c.Valid() && Auth(c.config, CostMethod).Enhanced?
    requires Usable(c.cache, clock.before).None?
    requires Token(c, env).result.Ok?
    requires IsAscii(Auth(c.config, CostMethod).password + Token(c, env).result.value)
    ensures var cost := Cost(c, env, clock, to, Unicode(text));
      var mode := Auth(c.config, CostMethod);
      var token := Token(c, env).result.value;
      var request := Request(CostMethod, SignedArgs(map["to" := to, "text" := text],
                                                    mode.login, token, env.md5Hex(mode.password + token)));
      && cost.client == c.(cache := Store(token, clock.after))
      && cost.sent == [TokenRequest(c.config[ApiKey]), request]
      && cost.result == Then(Outcome(cost.client, cost.sent, Exchange(env, request)), DecodeCost).result
  {
    var mode := Auth(c.config, CostMethod);
    SignedCallAfterFetch(c, env, clock, CostMethod, map["to" := to, "text" := text], mode.login, mode.password);
  }

  /** Whatever the configuration, `status`, `balance` and `limit` keep to the
      API key and leave the client alone. */
  lemma OtherCallsUseApiKey(c: Client, env: Env, clock: Clock, msgid: string)
    requires c.Valid()
    ensures var key := c.config[ApiKey];
      && SimpleAuthRequest(Status(c, env, clock, msgid).sent[0], key)
      && SimpleAuthRequest(Balance(c, env, clock).sent[0], key)
      && SimpleAuthRequest(Limit(c, env, clock).sent[0], key)
  {
    var key := c.config[ApiKey];
    assert Status(c, env, clock, msgid).sent[0].args == map["id" := msgid, ApiId := key];
    assert Balance(c, env, clock).sent[0].args == map[ApiId := key];
    assert Limit(c, env, clock).sent[0].args == map[ApiId := key];
  }

  // ---------------------------------------------------------------------
  // Token cache

  /** A token exactly 500 seconds old is still used; one a moment older is
      replaced by exactly one fetch. */
  lemma FreshnessBoundary(c: Client, env: Env, t: string, stamp: real, later: real)
    requires c.Valid() && c.cache == TokenCache(Some(t), stamp)
    ensures GetToken(c, env, Clock(stamp + 500.0, later)) == Outcome(c, [], Ok(t))
    ensures GetToken(c, env, Clock(stamp + 500.5, later)).sent == [TokenRequest(c.config[ApiKey])]
  {
  }

  /** A signed call from a client holding a usable token sends no
      `auth/get_token` request, signs with that token, and leaves the client
      as it was. */
  lemma CachedTokenReused(c: Client, env: Env, clock: Clock, name: string, args: map<string, string>)
    requires c.Valid() && name in SignedMethods && Auth(c.config, name).Enhanced?
    requires Usable(c.cache, clock.before).Some?
    ensures var o := Call(c, env, clock, name, Dict(args));
      && o.client == c
      && TokenFetches(o.sent) == 0
      && (|o.sent| > 0 ==>
            var mode := Auth(c.config, name);
            EnhancedAuthRequest(o.sent[0], mode.login, mode.password, c.cache.token.value, env.md5Hex))
  {
    var mode := Auth(c.config, name);
    SignedCallFetches(c, env, clock, name, args, mode.login, mode.password);
    SignedCallSigns(c, env, clock, name, args, mode.login, mode.password);
    ReuseShape(c, env, SignedCall(c, env, clock, name, args, mode.login, mode.password),
               name, args, mode.login, mode.password);
  }

  /** The reasoning behind `CachedTokenReused`, on the shape the signed call
      promises when a token is usable. */
  lemma ReuseShape(c: Client, env: Env, o: Outcome<seq<string>>, name: string,
                   entries: map<string, string>, login: string, password: string)
    requires name != TokenMethod
    requires o.client == c && |o.sent| <= 1 && (|o.sent| == 1 ==> o.sent[0].name == name)
    requires |o.sent| > 0 && o.sent[|o.sent| - 1].name == name ==>
      && o.client.cache.token.Some?
      && o.sent[|o.sent| - 1].args
         == SignedArgs(entries, login, o.client.cache.token.value,
                       env.md5Hex(password + o.client.cache.token.value))
    ensures TokenFetches(o.sent) == 0
    ensures |o.sent| > 0 ==>
      c.cache.token.Some? && EnhancedAuthRequest(o.sent[0], login, password, c.cache.token.value, env.md5Hex)
  {
    NoTokenFetches(o.sent);
  }

  /** Two signed calls within the freshness window share one token: the
      second sends no `auth/get_token` request, reuses the token the first
      cached, and leaves the cache alone. */
  lemma TokenReusedWithinWindow(c: Client, env: Env, clock1: Clock, clock2: Clock,
                                name1: string, args1: map<string, string>,
                                name2: string, args2: map<string, string>)
    requires c.Valid() && name1 in SignedMethods && name2 in SignedMethods
    requires Auth(c.config, name1).Enhanced?
    requires Call(c, env, clock1, name1, Dict(args1)).client.cache.token.Some?
    requires clock2.before <= Call(c, env, clock1, name1, Dict(args1)).client.cache.ts + FreshnessWindow
    ensures var c1 := Call(c, env, clock1, name1, Dict(args1)).client;
      var o2 := Call(c1, env, clock2, name2, Dict(args2));
      && o2.client == c1
      && TokenFetches(o2.sent) == 0
      && (|o2.sent| > 0 ==>
            var mode := Auth(c.config, name1);
            EnhancedAuthRequest(o2.sent[0], mode.login, mode.password, c1.cache.token.value, env.md5Hex))
  {
    var c1 := Call(c, env, clock1, name1, Dict(args1)).client;
    assert c1.Valid() && Auth(c1.config, name2).Enhanced? && Usable(c1.cache, clock2.before).Some? by {
      assert c1.config == c.config;
      SameModeForSignedMethods(c.config, name1, name2);
    }
    CachedTokenReused(c1, env, clock2, name2, args2);
  }

  /** The authentication mode does not tell `sms/send` and `sms/cost` apart. */
  lemma SameModeForSignedMethods(config: map<string, string>, name1: string, name2: string)
    requires name1 in SignedMethods && name2 in SignedMethods
    ensures Auth(config, name1) == Auth(config, name2)
  {
  }

  /** A trace that starts with a token request and has none after it. */
  lemma {:induction false} OneLeadingFetch(sent: seq<Request>)
    requires |sent| >= 1 && sent[0].name == TokenMethod
    requires forall i :: 1 <= i < |sent| ==> sent[i].name != TokenMethod
    ensures TokenFetches(sent) == 1
    decreases |sent|
  {
    if |sent| > 1 {
      assert sent[..|sent| - 1][0] == sent[0];
      OneLeadingFetch(sent[..|sent| - 1]);
    } else {
      assert sent[..0] == [];
    }
  }

  /** A signed call from a client with no usable token starts with exactly
      one `auth/get_token` request and makes no other. */
  lemma TokenFetchedWhenNoneUsable(c: Client, env: Env, clock: Clock, name: string, args: map<string, string>)
    requires c.Valid() && name in SignedMethods && Auth(c.config, name).Enhanced?
    requires Usable(c.cache, clock.before).None?
    ensures var o := Call(c, env, clock, name, Dict(args));
      && o.sent[0] == TokenRequest(c.config[ApiKey])
      && TokenFetches(o.sent) == 1
  {
    var mode := Auth(c.config, name);
    var o := SignedCall(c, env, clock, name, args, mode.login, mode.password);
    SignedCallFetches(c, env, clock, name, args, mode.login, mode.password);
    assert TokenMethod != name;
    OneLeadingFetch(o.sent);
  }

  /** Once the window has passed, a signed call starts with exactly one
      fresh `auth/get_token` request. */
  lemma TokenRefetchedAfterWindow(c: Client, env: Env, clock: Clock,
                                  name: string, args: map<string, string>)
    requires c.Valid() && name in SignedMethods && Auth(c.config, name).Enhanced?
    requires clock.before > c.cache.ts + FreshnessWindow
    ensures var o := Call(c, env, clock, name, Dict(args));
      && o.sent[0] == TokenRequest(c.config[ApiKey])
      && TokenFetches(o.sent) == 1
  {
    TokenFetchedWhenNoneUsable(c, env, clock, name, args);
  }

  /** From a new client, two signed calls within the window make one
      `auth/get_token` request between them, provided the server hands out
      a token (its answer to `auth/get_token` is not an envelope code). */
  lemma OneTokenFetchForTwoCalls(c: Client, env: Env, clock1: Clock, clock2: Clock,
                                 name1: string, args1: map<string, string>,
                                 name2: string, args2: map<string, string>)
    requires c.Valid() && c.cache == Unset
    requires name1 in SignedMethods && name2 in SignedMethods
    requires Auth(c.config, name1).Enhanced?
    requires !IsEnvelopeCode(Lines(env.transport(TokenRequest(c.config[ApiKey])))[0])
    requires clock2.before <= clock1.after + FreshnessWindow
    ensures var o1 := Call(c, env, clock1, name1, Dict(args1));
      var o2 := Call(o1.client, env, clock2, name2, Dict(args2));
      TokenFetches(o1.sent + o2.sent) == 1
  {
    var o1 := Call(c, env, clock1, name1, Dict(args1));
    assert TokenFetches(o1.sent) == 1 && o1.client.cache.ts == clock1.after by {
      var mode := Auth(c.config, name1);
      UnsetIsNeverUsable(clock1.before);
      assert GetToken(c, env, clock1).client.cache.token.Some?;
      assert o1.client == GetToken(c, env, clock1).client;
      TokenFetchedWhenNoneUsable(c, env, clock1, name1, args1);
      SignedCallFetches(c, env, clock1, name1, args1, mode.login, mode.password);
    }
    TokenReusedWithinWindow(c, env, clock1, clock2, name1, args1, name2, args2);
    var o2 := Call(o1.client, env, clock2, name2, Dict(args2));
    TokenFetchesAppend(o1.sent, o2.sent);
  }

  // ---------------------------------------------------------------------
  // Envelope codes

  lemma AsciiConcat(a: string, b: string)
    requires IsAscii(a) && IsAscii(b)
    ensures IsAscii(a + b)
  {
    assert forall i :: |a| <= i < |a + b| ==> (a + b)[i] == b[i - |a|];
  }

  /** An envelope code is the same error whichever operation meets it: with
      a server that answers every request with it, each public operation
      fails with that code's error. The credentials and the cached token are
      taken to be ASCII so that signing itself cannot fail first. */
  lemma EnvelopeErrorsAreUniform(c: Client, env: Env, clock: Clock, code: string,
                                 to: string, text: string, express: bool, test: bool, msgid: string)
    requires c.Valid() && IsEnvelopeCode(code)
    requires forall r :: Lines(env.transport(r))[0] == code
    requires "password" in c.config ==> IsAscii(c.config["password"])
    requires c.cache.token.Some? ==> IsAscii(c.cache.token.value)
    ensures var e := EnvelopeError(code).value;
      && Send(c, env, clock, to, Unicode(text), express, test).result == Err(e)
      && Cost(c, env, clock, to, Unicode(text)).result == Err(e)
      && Status(c, env, clock, msgid).result == Err(e)
      && Balance(c, env, clock).result == Err(e)
      && Limit(c, env, clock).result == Err(e)
      && Token(c, env).result == Err(e)
  {
    var e := EnvelopeError(code).value;
    assert Send(c, env, clock, to, Unicode(text), express, test).result == Err(e) by {
      CallIsEnvelope(c, env, clock, code, SendMethod, SendArgs(c.config, to, text, express, test));
    }
    assert Cost(c, env, clock, to, Unicode(text)).result == Err(e) by {
      CallIsEnvelope(c, env, clock, code, CostMethod, map["to" := to, "text" := text]);
    }
    assert Status(c, env, clock, msgid).result == Err(e) by {
      CallIsEnvelope(c, env, clock, code, StatusMethod, map["id" := msgid]);
    }
    assert Balance(c, env, clock).result == Err(e) by {
      CallIsEnvelope(c, env, clock, code, BalanceMethod, map[]);
    }
    assert Limit(c, env, clock).result == Err(e) by {
      CallIsEnvelope(c, env, clock, code, LimitMethod, map[]);
    }
    assert Token(c, env).result == Err(e) by {
      assert Lines(env.transport(TokenRequest(c.config[ApiKey])))[0] == code;
    }
  }

  /** Any call, in either authentication mode, fails with the envelope
      code's error when the server answers with it. */
  lemma CallIsEnvelope(c: Client, env: Env, clock: Clock, code: string,
                       name: string, args: map<string, string>)
    requires c.Valid() && IsEnvelopeCode(code)
    requires forall r :: Lines(env.transport(r))[0] == code
    requires "password" in c.config ==> IsAscii(c.config["password"])
    requires c.cache.token.Some? ==> IsAscii(c.cache.token.value)
    ensures Call(c, env, clock, name, Dict(args)).result == Err(EnvelopeError(code).value)
  {
    var key := c.config[ApiKey];
    assert Lines(env.transport(TokenRequest(key)))[0] == code;
    match Auth(c.config, name)
    case Simple =>
      assert Lines(env.transport(Request(name, args[ApiId := key])))[0] == code;
    case Enhanced(login, password) =>
      var t := GetToken(c, env, clock);
      if t.result.Ok? {
        var token := t.result.value;
        assert token == Usable(c.cache, clock.before).value;
        AsciiConcat(password, token);
        var request := Request(name, SignedArgs(args, login, token, env.md5Hex(password + token)));
        assert Lines(env.transport(request))[0] == code;
      }
  }

  // ---------------------------------------------------------------------
  // Example exchanges

  /** A two-line body reads as its two lines. */
  lemma LinesOfTwo(first: string, second: string)
    requires '\n' !in first && '\n' !in second
    requires |first| > 0 && !ByteSpace(first[0])
    requires |second| > 0 && !ByteSpace(second[|second| - 1])
    ensures Lines(first + "\n" + second) == [first, second]
  {
    var body := first + "\n" + second;
    assert Join([first, second], '\n') == body by {
      assert [first, second][1..] == [second];
    }
    assert body[0] == first[0] && body[|body| - 1] == second[|second| - 1];
    LinesOf(body, [first, second]);
  }

  /** A client configured with nothing but an API key. */
  function KeyOnly(key: string): (c: Client)
    ensures c.Valid()
  {
    Client(map[ApiKey := key], Unset)
  }

  /** A server that gives the same answer to every request. */
  function Answering(body: string, md5Hex: string -> string): Env {
    Env(_ => body, md5Hex)
  }

  /** With nothing but an API key configured every call is one plain
      request, and a body whose first line is not an envelope code comes back
      as its lines. */
  lemma KeyOnlyCallReads(key: string, body: string, md5Hex: string -> string, clock: Clock,
                         name: string, args: map<string, string>)
    requires !IsEnvelopeCode(Lines(body)[0])
    ensures Call(KeyOnly(key), Answering(body, md5Hex), clock, name, Dict(args)).result == Ok(Lines(body))
  {
    var c := KeyOnly(key);
    assert Auth(c.config, name).Simple?;
  }

  /** The same for each public operation: it decodes the body's lines. */
  lemma KeyOnlySendReads(key: string, body: string, lines: seq<string>, md5Hex: string -> string,
                         clock: Clock, to: string, text: string, express: bool, test: bool)
    requires Lines(body) == lines && !IsEnvelopeCode(lines[0])
    ensures Send(KeyOnly(key), Answering(body, md5Hex), clock, to, Unicode(text), express, test).result
         == DecodeSend(lines)
  {
    KeyOnlyCallReads(key, body, md5Hex, clock, SendMethod, SendArgs(KeyOnly(key).config, to, text, express, test));
  }

  lemma KeyOnlyStatusReads(key: string, body: string, lines: seq<string>, md5Hex: string -> string,
                           clock: Clock, msgid: string)
    requires Lines(body) == lines && !IsEnvelopeCode(lines[0])
    ensures Status(KeyOnly(key), Answering(body, md5Hex), clock, msgid).result == DecodeStatus(lines)
  {
    KeyOnlyCallReads(key, body, md5Hex, clock, StatusMethod, map["id" := msgid]);
  }

  lemma KeyOnlyCostReads(key: string, body: string, lines: seq<string>, md5Hex: string -> string,
                         clock: Clock, to: string, text: string)
    requires Lines(body) == lines && !IsEnvelopeCode(lines[0])
    ensures Cost(KeyOnly(key), Answering(body, md5Hex), clock, to, Unicode(text)).result == DecodeCost(lines)
  {
    KeyOnlyCallReads(key, body, md5Hex, clock, CostMethod, map["to" := to, "text" := text]);
  }

  lemma KeyOnlyBalanceReads(key: string, body: string, lines: seq<string>, md5Hex: string -> string,
                            clock: Clock)
    requires Lines(body) == lines && !IsEnvelopeCode(lines[0])
    ensures Balance(KeyOnly(key), Answering(body, md5Hex), clock).result == DecodeBalance(lines)
  {
    KeyOnlyCallReads(key, body, md5Hex, clock, BalanceMethod, map[]);
  }

  lemma KeyOnlyLimitReads(key: string, body: string, lines: seq<string>, md5Hex: string -> string,
                          clock: Clock)
    requires Lines(body) == lines && !IsEnvelopeCode(lines[0])
    ensures Limit(KeyOnly(key), Answering(body, md5Hex), clock).result == DecodeLimit(lines)
  {
    KeyOnlyCallReads(key, body, md5Hex, clock, LimitMethod, map[]);
  }

  /** A line the client reads back unchanged: no line feed inside and no
      whitespace at either end. */
  predicate PlainLine(s: string) {
    |s| > 0 && '\n' !in s && !ByteSpace(s[0]) && !ByteSpace(s[|s| - 1])
  }

  lemma LinesOfOne(line: string)
    requires PlainLine(line)
    ensures Lines(line) == [line]
  {
    LinesOf(line, [line]);
  }

  lemma LinesOfThree(a: string, b: string, c: string)
    requires PlainLine(a) && PlainLine(b) && PlainLine(c)
    ensures Lines(a + "\n" + b + "\n" + c) == [a, b, c]
  {
    var body := a + "\n" + b + "\n" + c;
    JoinThree(a, b, c);
    assert body[0] == a[0] && body[|body| - 1] == c[|c| - 1];
    LinesOf(body, [a, b, c]);
  }

  // Each answer below is what the operation returns when a client with
  // only an API key gets that body back (`KeyOnlySendReads` and its
  // siblings).

  /** "100" followed by an id: `send` reports the message as accepted with
      that id. */
  lemma SendAccepted(id: string)
    requires PlainLine(id)
    ensures DecodeSend(Lines("100" + "\n" + id)) == Ok(SendReport(100, "Message accepted", Some(id)))
  {
    LinesOfTwo("100", id);
    ReadsThreeDigits("100");
    assert Describe(SendStatus, 100) == "Message accepted";
  }

  /** A rejected message still reports the server's second line as its id:
      the appended `None` is never reached. */
  lemma SendRejectedKeepsSecondLine(extra: string)
    requires PlainLine(extra)
    ensures DecodeSend(Lines("201" + "\n" + extra)) == Ok(SendReport(201, "Out of money", Some(extra)))
  {
    LinesOfTwo("201", extra);
    ReadsThreeDigits("201");
    assert Describe(SendStatus, 201) == "Out of money";
  }

  /** A rejected message with a single line reports no id. */
  lemma SendRejectedWithoutId()
    ensures DecodeSend(Lines("201")) == Ok(SendReport(201, "Out of money", None))
  {
    LinesOfOne("201");
    ReadsThreeDigits("201");
    assert Describe(SendStatus, 201) == "Out of money";
  }

  /** An accepted message without an id line fails on the index. */
  lemma SendAcceptedWithoutId()
    ensures DecodeSend(Lines("100")) == Err(IndexError)
  {
    LinesOfOne("100");
  }

  /** The answer "103" to `status` reports delivery. */
  lemma StatusDelivered()
    ensures DecodeStatus(Lines("103")) == Ok(StatusReport(103, "Message delivered"))
  {
    LinesOfOne("103");
    ReadsThreeDigits("103");
    assert Describe(DeliveryStatus, 103) == "Message delivered";
  }

  /** "100", a price and a length: `cost` reports both. */
  lemma CostQuoted(price: string, length: string)
    requires PlainLine(price) && PlainLine(length)
    ensures DecodeCost(Lines("100" + "\n" + price + "\n" + length))
         == Ok(CostReport(100, "Success", Some(price), Some(length)))
  {
    LinesOfThree("100", price, length);
    ReadsThreeDigits("100");
    assert Describe(CostStatus, 100) == "Success";
  }

  /** The answer "203" to `cost` reports the code with no price and no
      length. */
  lemma CostWithoutQuote()
    ensures DecodeCost(Lines("203")) == Ok(CostReport(203, UnknownStatus, None, None))
  {
    LinesOfOne("203");
    ReadsThreeDigits("203");
    assert Describe(CostStatus, 203) == UnknownStatus;
  }

  /** "100" and an amount: `balance` returns the amount line. */
  lemma BalanceAnswered(amount: string)
    requires PlainLine(amount)
    ensures DecodeBalance(Lines("100" + "\n" + amount)) == Ok(amount)
  {
    LinesOfTwo("100", amount);
  }

  /** Any other single line is raised with that line as its detail. */
  lemma BalanceRefused(line: string)
    requires PlainLine(line) && line != Decode.Success
    ensures DecodeBalance(Lines(line)) == Err(RemoteFailure(line))
  {
    LinesOfOne(line);
  }

  /** The envelope check compares the text of the first line, while the
      decoders read it as a number: a first line "200\r" (a server ending its
      lines with CR LF) passes the envelope check, and `send` then reports code 200
      with an unknown-status text instead of raising `WrongKey`. */
  lemma EnvelopeCheckIsTextual(id: string)
    requires PlainLine(id)
    ensures !IsEnvelopeCode(Lines("200\r" + "\n" + id)[0])
    ensures DecodeSend(Lines("200\r" + "\n" + id)) == Ok(SendReport(200, UnknownStatus, Some(id)))
  {
    LinesOfTwo("200\r", id);
    ReadsCarriageReturn();
    assert Describe(SendStatus, 200) == UnknownStatus;
  }

  /** `int("200\r")` is 200: trailing whitespace is allowed. */
  lemma ReadsCarriageReturn()
    ensures ParseInt("200\r") == Some(200)
  {
    StripUnique([], "200", "\r", ByteSpace);
    assert [] + "200" + "\r" == "200\r";
    ReadsThreeDigits("200");
    StripDigits("200");
  }
}

=== FILE: tables.dfy ===
/** The three static code tables of the client and the lookup that reads
    them. A lookup never fails: a code the table does not document reads as
    "Unknown status". */
module StatusTables {

  const UnknownStatus := "Unknown status"

  /** Outcome codes of `sms/send`. */
  const SendStatus: map<int, string> := map[
    100 := "Message accepted",
    201 := "Out of money",
    202 := "Bad recipient",
    203 := "Message text not specified",
    204 := "Bad sender (unapproved)",
    205 := "Message too long",
    206 := "Day message limit reached",
    207 := "Can't send messages to that number",
    208 := "Wrong time",
    209 := "Blacklisted recipient"
  ]

  /** Delivery codes of `sms/status`. */
  const DeliveryStatus: map<int, string> := map[
    -1 := "Message not found",
    100 := "Message is in the queue",
    101 := "Message is on the way to the operator",
    102 := "Message is on the way to the recipient",
    103 := "Message delivered",
    104 := "Message failed: out of time",
    105 := "Message failed: cancelled by the operator",
    106 := "Message failed: phone malfunction",
    107 := "Message failed, reason unknown",
    108 := "Message declined"
  ]

  /** Outcome codes of `sms/cost`. */
  const CostStatus: map<int, string> := map[100 := "Success"]

  /** Python's `table.get(code, "Unknown status")`. */
  function Describe(table: map<int, string>, code: int): string {
    if code in table then table[code] else UnknownStatus
  }

  /** The fallback text is not the text of any listed code. */
  predicate FallbackIsDistinct(table: map<int, string>) {
    UnknownStatus !in table.Values
  }

  /** In a table whose texts differ from the fallback, the fallback appears
      exactly for the codes not listed, and every listed code reads as
      its own text. */
  lemma DescribeIsTotal(table: map<int, string>, code: int)
    requires FallbackIsDistinct(table)
    ensures Describe(table, code) == UnknownStatus <==> code !in table
    ensures code in table ==> Describe(table, code) == table[code]
  {
    if code in table {
      assert table[code] in table.Values;
    }
  }

  /** None of the three tables uses the fallback text for a listed code. */
  lemma TablesHaveDistinctFallback()
    ensures FallbackIsDistinct(SendStatus)
    ensures FallbackIsDistinct(DeliveryStatus)
    ensures FallbackIsDistinct(CostStatus)
  {
  }

  /** Every lookup the client makes answers: a code reads as "Unknown
      status" exactly when its table does not document it, and as the
      table's own text otherwise. */
  lemma LookupsAreTotal(code: int)
    ensures Describe(SendStatus, code) == UnknownStatus <==> code !in SendStatus
    ensures Describe(DeliveryStatus, code) == UnknownStatus <==> code !in DeliveryStatus
    ensures Describe(CostStatus, code) == UnknownStatus <==> code !in CostStatus
  {
    TablesHaveDistinctFallback();
    DescribeIsTotal(SendStatus, code);
    DescribeIsTotal(DeliveryStatus, code);
    DescribeIsTotal(CostStatus, code);
  }
}

=== FILE: text.dfy ===
/** The string operations the client relies on, written out with the exact
    behaviour of the Python 2 built-ins it calls: `strip()`, `split(sep)`,
    `split(sep, 1)`, `lstrip(c)` and `int()`.

    Strings are sequences of characters. A byte string (a response line, a
    token) is represented with one character per byte. */
module Text {
  import opened Errors

  /** Whitespace as C's `isspace` sees a byte: space, tab, line feed,
      vertical tab, form feed and carriage return. Byte strings are stripped
      with this. */
  predicate ByteSpace(c: char) {
    c == ' ' || '\t' <= c <= '\r'
  }

  /** Whitespace as Python 2.7's `unicode.isspace` sees a code point. Decoded
      configuration text is stripped with this. */
  predicate UnicodeSpace(c: char) {
    || ByteSpace(c)
    || '\U{1C}' <= c <= '\U{1F}'
    || c == '\U{85}' || c == '\U{A0}'
    || c == '\U{1680}' || c == '\U{180E}'
    || '\U{2000}' <= c <= '\U{200A}'
    || c == '\U{2028}' || c == '\U{2029}' || c == '\U{202F}' || c == '\U{205F}'
    || c == '\U{3000}'
  }

  ghost predicate AllSpace(s: string, ws: char -> bool) {
    forall i :: 0 <= i < |s| ==> ws(s[i])
  }

  /** Python's `strip()`: drops every leading and trailing character that
      `ws` calls whitespace. */
  function Strip(s: string, ws: char -> bool): (r: string)
    ensures |r| <= |s|
    ensures |r| > 0 ==> !ws(r[0]) && !ws(r[|r| - 1])
    decreases |s|
  {
    if |s| > 0 && ws(s[0]) then Strip(s[1..], ws)
    else if |s| > 0 && ws(s[|s| - 1]) then Strip(s[..|s| - 1], ws)
    else s
  }

  /** Stripping removes exactly the whitespace around the text: whatever
      whitespace surrounds a core that neither starts nor ends with
      whitespace, `Strip` returns that core. */
  lemma {:induction false} StripUnique(p: string, core: string, q: string, ws: char -> bool)
    requires AllSpace(p, ws) && AllSpace(q, ws)
    requires |core| > 0 ==> !ws(core[0]) && !ws(core[|core| - 1])
    ensures Strip(p + core + q, ws) == core
    decreases |p| + |q|
  {
    var s := p + core + q;
    if |p| > 0 {
      assert ws(s[0]) by { assert s[0] == p[0]; }
      assert s[1..] == p[1..] + core + q;
      StripUnique(p[1..], core, q, ws);
    } else if |q| > 0 {
      assert s == core + q;
      if |core| > 0 {
        assert s[0] == core[0];
      } else {
        assert s[0] == q[0];
        assert s[1..] == p + core + q[1..];
        StripUnique(p, core, q[1..], ws);
        return;
      }
      assert ws(s[|s| - 1]) by { assert s[|s| - 1] == q[|q| - 1]; }
      assert s[..|s| - 1] == p + core + q[..|q| - 1];
      StripUnique(p, core, q[..|q| - 1], ws);
    } else {
      assert s == core;
    }
  }

  /** The position of the first `c` in `s`, or `|s|` when there is none. */
  function IndexOf(s: string, c: char): (i: nat)
    ensures i <= |s|
    ensures i < |s| ==> s[i] == c
    ensures forall j :: 0 <= j < i ==> s[j] != c
    decreases |s|
  {
    if |s| == 0 then 0
    else if s[0] == c then 0
    else 1 + IndexOf(s[1..], c)
  }

  /** The inverse of `Split`: the parts with `sep` between each pair. */
  function Join(parts: seq<string>, sep: char): string
    decreases |parts|
  {
    if |parts| == 0 then []
    else if |parts| == 1 then parts[0]
    else parts[0] + [sep] + Join(parts[1..], sep)
  }

  /** Python's `s.split(sep)` for a one-character separator: never empty
      (`"".split(sep) == [""]`), no part contains the separator, and joining
      the parts gives back `s`. */
  function Split(s: string, sep: char): (parts: seq<string>)
    ensures |parts| >= 1
    ensures forall i :: 0 <= i < |parts| ==> sep !in parts[i]
    ensures Join(parts, sep) == s
    decreases |s|
  {
    var i := IndexOf(s, sep);
    if i == |s| then
      [s]
    else
      var rest := Split(s[i + 1..], sep);
      assert s == s[..i] + [sep] + s[i + 1..];
      [s[..i]] + rest
  }

  /** Splitting undoes joining, so `Split` and `Join` are inverse on
      separator-free parts. */
  lemma {:induction false} SplitJoin(parts: seq<string>, sep: char)
    requires |parts| >= 1
    requires forall i :: 0 <= i < |parts| ==> sep !in parts[i]
    ensures Split(Join(parts, sep), sep) == parts
    decreases |parts|
  {
    var s := Join(parts, sep);
    var p := parts[0];
    if |parts| == 1 {
      assert sep !in s;
      assert IndexOf(s, sep) == |s|;
    } else {
      var rest := Join(parts[1..], sep);
      assert s == p + [sep] + rest;
      assert s[|p|] == sep;
      assert forall j :: 0 <= j < |p| ==> s[j] == p[j];
      assert IndexOf(s, sep) == |p|;
      assert s[..|p|] == p;
      assert s[|p| + 1..] == rest;
      SplitJoin(parts[1..], sep);
      assert [p] + parts[1..] == parts;
    }
  }

  /** The lines of a text as the client reads them, whether a configuration
      file or a response body: the text is stripped of surrounding
      whitespace, then split at every line feed. There is always a first
      line. */
  function Lines(text: string): (lines: seq<string>)
    ensures |lines| >= 1
    ensures forall i :: 0 <= i < |lines| ==> '\n' !in lines[i]
    ensures Join(lines, '\n') == Strip(text, ByteSpace)
  {
    Split(Strip(text, ByteSpace), '\n')
  }

  /** A text without surrounding whitespace reads as the lines it joins. */
  lemma LinesOf(text: string, lines: seq<string>)
    requires |lines| >= 1 && forall i :: 0 <= i < |lines| ==> '\n' !in lines[i]
    requires Join(lines, '\n') == text
    requires |text| > 0 && !ByteSpace(text[0]) && !ByteSpace(text[|text| - 1])
    ensures Lines(text) == lines
  {
    StripUnique([], text, [], ByteSpace);
    assert [] + text + [] == text;
    SplitJoin(lines, '\n');
  }

  lemma JoinThree(a: string, b: string, c: string)
    ensures Join([a, b, c], '\n') == a + "\n" + b + "\n" + c
  {
    assert [a, b, c][1..] == [b, c];
    assert [b, c][1..] == [c];
    assert Join([b, c], '\n') == b + "\n" + c;
    assert Join([a, b, c], '\n') == a + "\n" + (b + "\n" + c);
  }

  /** Python's `s.split(sep, 1)` seen through the length of its result: `None`
      when `s` has no `sep` (a one-element list), otherwise the text before the
      first `sep` and everything after it. */
  function SplitOnce(s: string, sep: char): (r: Option<(string, string)>)
    ensures r.None? <==> sep !in s
    ensures r.Some? ==> r.value.0 + [sep] + r.value.1 == s && sep !in r.value.0
  {
    var i := IndexOf(s, sep);
    if i == |s| then None
    else
      assert s == s[..i] + [sep] + s[i + 1..];
      Some((s[..i], s[i + 1..]))
  }

  function Repeat(c: char, n: nat): (r: string)
    ensures |r| == n && forall i :: 0 <= i < n ==> r[i] == c
  {
    if n == 0 then [] else [c] + Repeat(c, n - 1)
  }

  /** Python's `s.lstrip(c)`: drops every leading `c`. */
  function LStrip(s: string, c: char): (r: string)
    ensures |r| <= |s|
    ensures |r| > 0 ==> r[0] != c
    decreases |s|
  {
    if |s| > 0 && s[0] == c then LStrip(s[1..], c) else s
  }

  /** What `lstrip` removes is exactly a run of `c`: the text is that run
      followed by the result. */
  lemma {:induction false} LStripRemovesRun(s: string, c: char)
    ensures s == Repeat(c, |s| - |LStrip(s, c)|) + LStrip(s, c)
    decreases |s|
  {
    if |s| > 0 && s[0] == c {
      LStripRemovesRun(s[1..], c);
      assert s == [c] + s[1..];
    }
  }

  /** True when every character is 7-bit, so that Python 2 converts the text
      between byte strings and unicode without error. */
  predicate IsAscii(s: string) {
    forall i :: 0 <= i < |s| ==> s[i] < '\U{80}'
  }

  predicate IsDigit(c: char) {
    '0' <= c <= '9'
  }

  predicate AllDigits(s: string) {
    forall i :: 0 <= i < |s| ==> IsDigit(s[i])
  }

  /** The number a string of decimal digits denotes. */
  function DigitsValue(ds: string): nat
    requires AllDigits(ds)
    decreases |ds|
  {
    if |ds| == 0 then 0
    else DigitsValue(ds[..|ds| - 1]) * 10 + (ds[|ds| - 1] as int - '0' as int)
  }

  /** Python 2's `int()` applied to a byte string: optional whitespace, an
      optional sign, optional whitespace again (the C routine skips it a second
      time after the sign), at least one decimal digit, optional whitespace.
      Anything else is `None` (a `ValueError` in Python). */
  function ParseInt(s: string): Option<int> {
    ParseSigned(Strip(s, ByteSpace))
  }

  /** `int()` on text without surrounding whitespace. */
  function ParseSigned(t: string): Option<int> {
    if |t| > 0 && t[0] == '-' then
      match ParseDigits(Strip(t[1..], ByteSpace))
      case None => None
      case Some(n) => Some(-n)
    else if |t| > 0 && t[0] == '+' then ParseDigits(Strip(t[1..], ByteSpace))
    else ParseDigits(t)
  }

  function ParseDigits(ds: string): Option<int> {
    if |ds| == 0 || !AllDigits(ds) then None else Some(DigitsValue(ds))
  }

  /** The decimal digits of a natural number, most significant first. */
  function ShowNat(n: nat): (r: string)
    ensures |r| > 0 && AllDigits(r)
    decreases n
  {
    var d := ['0' + (n % 10) as char];
    if n < 10 then d else ShowNat(n / 10) + d
  }

  /** Python's `str(n)` for an integer. */
  function ShowInt(n: int): string {
    if n < 0 then "-" + ShowNat(-n) else ShowNat(n)
  }

  lemma {:induction false} DigitsOfShowNat(n: nat)
    ensures DigitsValue(ShowNat(n)) == n
    decreases n
  {
    var r := ShowNat(n);
    if n >= 10 {
      DigitsOfShowNat(n / 10);
      assert r[..|r| - 1] == ShowNat(n / 10);
    }
  }

  lemma StripDigits(ds: string)
    requires |ds| > 0 && AllDigits(ds)
    ensures Strip(ds, ByteSpace) == ds
  {
    assert IsDigit(ds[0]) && IsDigit(ds[|ds| - 1]);
    StripUnique([], ds, [], ByteSpace);
    assert [] + ds + [] == ds;
  }

  /** `int()` of a plain digit string is the number it spells. */
  lemma ParseDigitString(ds: string)
    requires |ds| > 0 && AllDigits(ds)
    ensures ParseInt(ds) == Some(DigitsValue(ds))
  {
    StripDigits(ds);
  }

  /** `int()` of a three-digit string. */
  lemma ReadsThreeDigits(ds: string)
    requires |ds| == 3 && AllDigits(ds)
    ensures ParseInt(ds)
         == Some((ds[0] as int - '0' as int) * 100 + (ds[1] as int - '0' as int) * 10 + (ds[2] as int - '0' as int))
  {
    ParseDigitString(ds);
    assert ds[..1][..0] == [];
    assert DigitsValue(ds[..1]) == ds[0] as int - '0' as int;
    assert ds[..2][..1] == ds[..1];
    assert DigitsValue(ds[..2]) == DigitsValue(ds[..1]) * 10 + (ds[1] as int - '0' as int);
    assert ds[..3] == ds;
  }

  lemma StripNegative(ds: string)
    requires |ds| > 0 && AllDigits(ds)
    ensures Strip("-" + ds, ByteSpace) == "-" + ds
  {
    var s := "-" + ds;
    assert IsDigit(ds[|ds| - 1]) && s[|s| - 1] == ds[|ds| - 1];
    StripUnique([], s, [], ByteSpace);
    assert [] + s + [] == s;
  }

  /** `int()` reads back what `str()` writes: the two are inverse on every
      integer. */
  lemma ParseShowInt(n: int)
    ensures ParseInt(ShowInt(n)) == Some(n)
  {
    if n < 0 {
      var ds := ShowNat(-n);
      DigitsOfShowNat(-n);
      StripNegative(ds);
      StripDigits(ds);
      assert ("-" + ds)[1..] == ds;
    } else {
      DigitsOfShowNat(n);
      StripDigits(ShowNat(n));
    }
  }
}

=== FILE: tokens.dfy ===
/** The client's token cache as a value: the cached token, if any, and the
    time it was obtained. Times are seconds as read from the wall clock. */
module Tokens {
  import opened Errors

  /** A cached token stays usable for this many seconds. */
  const FreshnessWindow: real := 500.0

  datatype TokenCache = TokenCache(token: Option<string>, ts: real)

  /** The cache of a newly constructed client: no token, timestamp 0. */
  const Unset := TokenCache(None, 0.0)

  /** The cached token is older than the freshness window. An age of exactly
      500 seconds is not stale. */
  predicate Stale(cache: TokenCache, now: real) {
    cache.ts < now - FreshnessWindow
  }

  /** The first step of `_get_token`: a stale token is discarded; the
      timestamp is kept either way. */
  function Expire(cache: TokenCache, now: real): (c: TokenCache)
    ensures c.ts == cache.ts
    ensures c.token.Some? ==> c.token == cache.token && now - cache.ts <= FreshnessWindow
    ensures cache.token.Some? && now - cache.ts <= FreshnessWindow ==> c == cache
  {
    if Stale(cache, now) then cache.(token := None) else cache
  }

  /** The token `_get_token` returns without asking the server, if any. */
  function Usable(cache: TokenCache, now: real): Option<string> {
    Expire(cache, now).token
  }

  /** The cache right after a token was fetched at time `stamp`: it serves
      that token for exactly the next 500 seconds, and no longer. */
  function Store(token: string, stamp: real): (c: TokenCache)
    ensures forall now :: Usable(c, now) == (if now <= stamp + FreshnessWindow then Some(token) else None)
  {
    TokenCache(Some(token), stamp)
  }

  /** A new client has no usable token, whatever the clock says, so its first
      signed call always fetches one. */
  lemma UnsetIsNeverUsable(now: real)
    ensures Usable(Unset, now) == None
  {
  }
}
